=== FILE: README.md ===
# redbot core, modelled in Dafny

This project models the core of `redbot`, a small Reddit API client written in
Rust. It covers these parts of the client:

- the `ApiError` type, its rendering, and its conversions from the errors of the wrapped libraries;
- the `QueryListingRequest` builder that describes a paginated fetch;
- the `Api` client, built up in this order:
  - login state: `new`, `do_login`, the cached identity and `get_username`;
  - every request: the headers (User-Agent, and bearer token when logged in) and the path rewrite (`{username}` and the API root);
  - `query`, which sends one request;
  - `query_listing`, the cursor-pagination engine;
  - `search_for_subreddit` and `get_subreddit`, the subreddit lookup;
- `Subreddit::get_top`, which splits a post count into pages.

The network is an oracle. A `Fetcher` maps the index of a request within one
operation, together with the request itself, to the reply it gets. That reply
is a delivered response, with a status and either a parsed JSON body or an
unparsable one, or a transport failure. Every operation is a pure function of
the client state and the oracle. A listing fetch also returns the requests it
sent, so its contracts can speak about them.

Each operation can end in one of three ways, and `Outcome` keeps them apart:

- **Ok**: a value is returned to the caller.
- **Err**: the operation returns an `ApiError`. Each error carries a `source` and a `message`.
  - The client raises some errors itself. Their source is empty. Examples are "Server error, code 404" and "Subreddit not found".
  - Errors from the libraries it uses carry the library's tag as their source. Examples are `reqwest::Error` and `serde_json::error::Error`.
- **Panic**: the Rust code calls `unwrap` on a missing value, and the program crashes.

Some behaviours of the code are modelled exactly as written:

- `query_listing` adds the descriptor's extra `params` only when there are none (src/lib.rs:339-343). So they never reach a request, and `ParamsNeverSent` proves it.
- Each listing page must carry a string `data.after`. When the last page of a listing has a null cursor, the fetch panics instead of returning the items (`NullCursorPanics`).
- A page body that reqwest cannot decode is a `reqwest::Error`, not a `serde_json` error. In reqwest 0.9, `Response::json` returns `reqwest::Error`.
- `get_top(n)` with `n > 100` asks for `n / 100` pages of 100, rounding down. Against a server that fills every page, it returns `100 * (n / 100)` posts. For example, `get_top(250)` returns 200 posts (`GetTopFallsShort`).

Modules, in dependency order:

- `Optional`, `Text`, `Json`, `Errors`, `Http`: the building blocks.
  - `Text` holds the string operations `str::contains`, `str::replace` and the decimal rendering of integers.
  - `Json` is a JSON value with the `serde_json` indexing rule: a missing key reads as `null`.
  - `Http` holds status classes, ordered name/value pairs, requests, replies and the server-error message.
- `ListingRequest`: `src/query_listing.rs`.
- `Client` and `ClientProperties`: `Api` up to `query` and `do_login`.
- `Pagination`: `query_listing`. It has an independent step-by-step description of the loop (`FollowsLoop`) and the theorem that the engine follows it.
- `Subreddits`: `src/models/subreddit.rs`.
- `SubredditSearch`: `search_for_subreddit` and `get_subreddit`.

## Model

| member | source | states |
|---|---|---|
| Errors.Display | src/errors.rs:16-24 | a sourceless error renders as "API error: " then its message; one with a source renders as "API error from '<source>': " followed by exactly its message; every rendering starts with "API error" and ends with the message |
| Errors.DisplayShowsWhetherSourced | src/errors.rs:16-24 | the rendering shows which of the two forms was used: its tenth character is ':' exactly when the source is empty |
| Errors.DisplayDeterminesPlainError | src/errors.rs:16-24 | two errors that render the same either both have a source or both do not, and a sourceless error is recovered from its rendering |
| Errors.FromWrapped | src/errors.rs:32-66 | wrapping a library error gives a non-empty source, the tag of that library, and keeps the error's debug text as the message |
| Errors.TagsDistinct | src/errors.rs:32-66 | the four wrapped libraries have four different tags, so the source names the library |
| Errors.WrappedRendersWithTag | src/errors.rs:16-66 | a wrapped error always renders in the "from '<tag>'" form |
| Errors.FromMessage | src/errors.rs:68-75 | an error built from a string has an empty source and that string as the message |
| Errors.MessageRendersPlain | src/errors.rs:93-103 | an error built from a message renders as "API error: " followed by the message |
| Text.ReplaceInserts | src/lib.rs:233-235 | replacing every occurrence of a placeholder that occurs in a path yields a path that contains the replacement |
| Text.ReplaceAbsent | src/lib.rs:236-238 | a path without the placeholder is left as it is |
| Text.ReplaceSplit | src/lib.rs:235 | `str::replace` scans left to right without overlap: the text before the first occurrence is kept, that occurrence becomes the replacement, and the scan resumes right after it |
| Text.DecimalRoundTrip | src/lib.rs:344-350 | the decimal rendering of a count or page size parses back to the same number |
| Http.ServerErrorMessage | src/lib.rs:356-361 | the message of a 4xx/5xx reply is "Server error, code " followed by exactly three digits |
| Http.ServerErrorMessageNamesStatus | src/lib.rs:356-361 | those three digits read back as the reply's status |
| ListingRequest.New | src/query_listing.rs:43-53 | a fresh descriptor has the given path, page size and page count, no extra parameters, no cursor, a zero count and shows hidden items |
| ListingRequest.QueryListingRequest.WithPath | src/query_listing.rs:56-59 | the override sets `path` to the value given and leaves the other six fields as they were |
| ListingRequest.QueryListingRequest.WithParams | src/query_listing.rs:62-65 | the override sets `params` to the value given and leaves the other six fields as they were |
| ListingRequest.QueryListingRequest.WithAfter | src/query_listing.rs:68-71 | the override sets `after` to the value given and leaves the other six fields as they were |
| ListingRequest.QueryListingRequest.WithCount | src/query_listing.rs:74-77 | the override sets `count` to the value given and leaves the other six fields as they were |
| ListingRequest.QueryListingRequest.WithLimit | src/query_listing.rs:80-83 | the override sets `limit` to the value given and leaves the other six fields as they were |
| ListingRequest.QueryListingRequest.WithRequests | src/query_listing.rs:86-89 | the override sets `requests` to the value given and leaves the other six fields as they were |
| ListingRequest.QueryListingRequest.WithShowAll | src/query_listing.rs:92-95 | the override sets `show_all` to the value given and leaves the other six fields as they were |
| ListingRequest.SettersLastWins | src/query_listing.rs:55-95 | overriding a field twice keeps only the last value |
| ListingRequest.SettersCommute | src/query_listing.rs:55-95 | for each of the 21 pairs of different fields, the two overrides can be applied in either order |
| ListingRequest.BuilderChain | src/query_listing.rs:119-142 | a fresh descriptor with params, after, count and show_all overridden reads back every value given and keeps path, page size and page count |
| Client.New | src/lib.rs:140-148 | a new client keeps the configuration and has neither a token nor an identity |
| Client.GetUsername | src/lib.rs:199-202 | no name without a cached identity; with one, the name is its string `name` field, and a missing or non-string `name` panics |
| Client.BearerValueValid | src/lib.rs:213-218 | "bearer " plus a token is a valid header value exactly when the token is |
| Client.GetHeaders | src/lib.rs:207-222 | the headers are built exactly when the User-Agent (and the bearer value, with a token) is a valid header value, otherwise it panics; the User-Agent is always the configured one; the Authorization header is present exactly when a token is cached and is "bearer " plus the token; there is no other header |
| Client.ReformatPath | src/lib.rs:226-240 | a path without `{username}` becomes root + "/" + path; one with it panics unless a name is cached, and otherwise has every placeholder replaced by that name, left to right as `ReplaceSplit` states, and the name then occurs in the result |
| Client.BuildRequest | src/lib.rs:281-297 | a request is built exactly when the path and headers can be; it carries the given method, the rewritten URL, the client's headers, the query pairs (none when absent) and the form |
| Client.Query | src/lib.rs:281-305 | it panics when the request cannot be built; otherwise the reply to that request is returned unchanged, whatever its status, and a transport failure is a `reqwest::Error` |
| Client.GetWhoami | src/lib.rs:193-197 | the identity is the decoded body of the reply to `api/v1/me`; an undecodable body is a `reqwest::Error`; a failed query is passed on, the same error for an error and a panic for a panic |
| Client.DoLogin | src/lib.rs:163-190 | a failed token exchange changes nothing; otherwise the token is cached before the identity fetch, which runs with it; the login succeeds exactly when that fetch does, and only then caches the identity; a failed identity fetch is passed on, the same error for an error and a panic for a panic |
| ClientProperties.NewSendsNoAuthorization | src/lib.rs:508-515 | a new client sends no Authorization header, and builds its headers exactly when its User-Agent is valid |
| ClientProperties.WhoamiRequestCarriesNewToken | src/lib.rs:185-186 | the identity request of a login already carries the freshly obtained bearer token |
| ClientProperties.LoginKeepsTokenWhenWhoamiFails | src/lib.rs:183-188 | when the identity fetch fails, the login fails but the token stays cached, with no identity |
| ClientProperties.LoginAuthorizesLaterRequests | src/lib.rs:185-222 | after a successful login, every request's headers carry "bearer " plus the new token |
| ClientProperties.WhoamiReadsTestIdentity | src/lib.rs:524-529 | a server answering `{"name":"test-name"}` makes that body the identity |
| ClientProperties.LoginThenUsername | src/lib.rs:518-537 | a login against that server succeeds and makes "test-name" the account name |
| Pagination.ReadPageMeaning | src/lib.rs:355-367 | how one reply is read: a transport failure is a `reqwest::Error`; a 4xx/5xx status is the "Server error, code" error whatever the body; with any other status, an undecodable body is a `reqwest::Error`; the loop continues exactly when the body has a string `data.after` and an array `data.children`, which become the next cursor and the page's items; any other decoded body panics |
| Pagination.ReadPage | src/lib.rs:355-367 | a reply aborts the loop exactly on a transport failure, a 4xx/5xx status or an undecodable body; it panics only on a decoded body (see `ReadPageMeaning`) |
| Pagination.StopEndsFetch | src/lib.rs:355-367 | a reply that does not continue the loop is the reply to the last request sent, and its reading is the fetch's outcome |
| Pagination.NullCursorPanics | src/lib.rs:362-363 | a reply with a status outside 4xx/5xx and a decoded body without a string `data.after` is the last one, and the whole fetch panics; this holds on the last page asked for too |
| Pagination.PagesFollowLoop | src/lib.rs:337-368 | from any page on, the engine follows the loop's description (see `QueryListingFollowsLoop`) |
| Pagination.PagesStopFollowLoop | src/lib.rs:355-363 | a page that stops the loop is the last request sent, and its reading is the outcome |
| Pagination.PagesNextFollowLoop | src/lib.rs:362-367 | a page that continues the loop passes its cursor and the count increased by its items to the next request, and puts its items in front of those of the later pages |
| Pagination.PagesDoneFollowLoop | src/lib.rs:337-369 | after the last of `requests` pages, nothing more is sent and the items gathered are returned |
| Pagination.Pages | src/lib.rs:337-368 | from page k on, at most `requests - k` requests are sent, exactly that many when the pages succeed, and at least one when they fail |
| Pagination.QueryListing | src/lib.rs:323-370 | at most `requests` requests, exactly `requests` on success, and a panic with nothing sent when the path or headers cannot be built (the full trace is `QueryListingFollowsLoop`) |
| Pagination.QueryListingFollowsLoop | src/lib.rs:323-370 | a listing fetch panics without sending anything when the path or headers cannot be built; otherwise request i asks for the descriptor's page size with the cursor and count produced by the replies before it (the descriptor's own cursor and count for the first); at most `requests` requests are sent; every reply but the last continues the loop; the fetch succeeds exactly when all `requests` replies do, returning all their items in order, and otherwise ends with what the last reply read as |
| Pagination.ListingParamsDecode | src/lib.rs:344-354 | read by name, the page parameters hold the page size first, then the cursor exactly when non-empty, then the count exactly when non-zero, then `show=all` exactly when hidden items are shown |
| Pagination.ListingParamsRecoverState | src/lib.rs:344-354 | page size, cursor, count and show flag are all recovered from the page parameters |
| Pagination.ListingParams | src/lib.rs:344-353 | one to four parameters with the page size first; the full decoding is `ListingParamsDecode` |
| Pagination.PageRequest | src/lib.rs:337-354 | a page request is a GET to the listing URL with the client's headers and no form; its query is stated by `PageQueryIsListingParams` |
| Pagination.PageQueryIsListingParams | src/lib.rs:337-354 | every page request is a GET whose query is exactly the page parameters |
| Pagination.PagesIgnoreParams | src/lib.rs:339-343 | from any page on, the descriptor's extra parameters change neither the requests nor the outcome |
| Pagination.ParamsNeverSent | src/lib.rs:339-343 | a listing fetch sends the same requests and returns the same outcome whatever extra parameters the descriptor carries |
| Pagination.ErrorStatusAbortsFetch | src/lib.rs:355-361 | a 4xx/5xx reply to any request makes it the last one sent and the fetch an error naming the status, with no items |
| Pagination.SuccessfulFetchReadsEveryPage | src/lib.rs:337-369 | a successful fetch sent exactly `requests` requests, every reply continued the loop, and the items are all their children in order |
| Pagination.ReceivedUniformPages | src/lib.rs:364-367 | pages of n children each give n items per page |
| Pagination.ReceivedBoundedPages | src/lib.rs:364-367 | pages of at most n children each give at most n items per page |
| Pagination.BoundedListing | src/lib.rs:337-369 | against a server whose pages never hold more children than the page size, a successful fetch returns at most `limit * requests` items |
| Pagination.FreshDescriptorFirstQuery | src/lib.rs:544-549 | the first request for a fresh descriptor with page size 3 asks for `limit=3&show=all` |
| Pagination.ThreeChildPage | src/lib.rs:541-543 | the test's listing body reads as a page with cursor `t3_ccccc` and three children |
| Pagination.FreshClientRunsLoop | src/lib.rs:323-337 | a new client with a valid User-Agent lists a placeholder-free path by running the loop on root + "/" + path with only the User-Agent header |
| Pagination.ThreeChildLoop | src/lib.rs:337-369 | one page of three children, fetched as the only page, gives those three children after one request |
| Pagination.SinglePageListing | src/lib.rs:540-554 | the listing test: one request, to `/some/endpoint` with `limit=3&show=all`, returning three items |
| Subreddits.TopRequest | src/models/subreddit.rs:34-40 | the top-posts descriptor is a fresh one for `r/<name>/top`; a count up to 100 is one page of exactly that many items, a larger count is `count / 100` pages of 100; either way the pages requested never exceed the count and fall short of it by less than one full page |
| Subreddits.TopRequestCoversCount | src/models/subreddit.rs:34-38 | the pages requested add up to the count exactly when it is at most 100 or a multiple of 100; otherwise the remainder `count % 100` is never requested |
| Subreddits.GetTop | src/models/subreddit.rs:33-43 | it succeeds exactly when the listing fetch does, passing an error or panic on unchanged; the posts are the first `min(count, fetched)` items fetched |
| Subreddits.UniformListing | src/lib.rs:337-369 | against a server whose every page holds exactly the page size, a listing whose path and headers can be built succeeds after one request per page with `limit * requests` items |
| Subreddits.GetTopFullPages | src/models/subreddit.rs:33-43 | against a server that fills every page, the call sends one request per page and returns `count` posts up to 100, otherwise `100 * (count / 100)` |
| Subreddits.GetTopFallsShort | src/models/subreddit.rs:34-42 | against a server that fills every page, a count over 100 that is not a multiple of 100 comes back `count % 100` posts short |
| Subreddits.GetTopAtMostPages | src/models/subreddit.rs:34-42 | against any server whose pages never hold more children than the page size asked for, `get_top` returns at most `count` posts, and for a count over 100 at most `100 * (count / 100)` |
| Subreddits.TopTwoHundredFifty | src/models/subreddit.rs:34-40 | asking for 250 posts requests two pages of 100 from `r/<name>/top` |
| SubredditSearch.StringsOf | src/lib.rs:401-406 | the names kept are exactly the string entries of the array, never more names than entries |
| SubredditSearch.StringsOfAppend | src/lib.rs:401-406 | names are kept in order: the names of a joined array are the names of each part, one after the other |
| SubredditSearch.StringsOfAllStrings | src/lib.rs:401-406 | an array of strings only gives every entry, at the same position |
| SubredditSearch.SearchForSubreddit | src/lib.rs:386-411 | the search panics when the headers cannot be built, and its only errors are a library error or the "Server error, code" error (the request it sends is `SearchSendsOneRequest`) |
| SubredditSearch.ReadNames | src/lib.rs:393-410 | a 4xx/5xx status is an error; the only errors are a library error or the "Server error, code" error; a success needs a decoded body with a `names` array, and every subreddit returned is named by a string entry of it (see `ReadNamesMeaning`) |
| SubredditSearch.ReadNamesMeaning | src/lib.rs:393-410 | a 4xx/5xx status is the "Server error, code" error; an undecodable body is a `reqwest::Error`; a missing `names` array panics; otherwise it succeeds with one subreddit per string entry, in order |
| SubredditSearch.ReadNamesKeepsStringEntries | src/lib.rs:401-410 | a name is among the results exactly when it is a string entry of `names` |
| SubredditSearch.SearchSendsOneRequest | src/lib.rs:386-392 | the search panics when the headers cannot be built; otherwise it sends one GET to `api/search_reddit_names` with `query=<name>&exact=false`, and that request's reply alone decides the outcome |
| SubredditSearch.SearchPathNeedsNoIdentity | src/lib.rs:386-392 | the search path has no `{username}` placeholder, so its URL does not depend on the cached identity |
| SubredditSearch.FindByName | src/lib.rs:428-433 | the position found holds the name asked for and no earlier result has it; no position means no result has it |
| SubredditSearch.GetSubreddit | src/lib.rs:427-435 | a failed search is passed on; otherwise it succeeds exactly when some result has the exact name, returns a subreddit with that name, and otherwise fails with "Subreddit not found" |
| SubredditSearch.GetSubredditFindsListedName | src/lib.rs:427-435 | whenever some search result has the name asked for, the result is that subreddit |
| SubredditSearch.ThreeNames | src/lib.rs:573-577 | the test's body reads as the subreddits `rust`, `rust1`, `rust2`, in order |
| SubredditSearch.ScenarioSearch | src/lib.rs:572-584 | the search step of the lookup test: against a server answering that body, the search returns those three subreddits |
| SubredditSearch.FindsExactMatch | src/lib.rs:572-584 | `get_subreddit("rust1")` against that server returns the subreddit `rust1` |

## Left out

- Transport: the HTTP client, TLS, mockito and the real URLs. They are replaced by the `Fetcher` oracle. In a test build the client talks to mockito's server instead of `https://oauth.reddit.com`; the model uses the production root.
- Reply indices: the oracle tells requests apart by their position within one operation. A real server may answer the same request differently over time, and this is how the model allows for that.
- Token exchange: the POST to `/api/v1/access_token` in `do_login` is not modelled. That covers its form, Basic authentication and the decoding of the `AccessTokenResponse`. The exchange's result is a parameter (`TokenReply`), either a token or the library error that stopped it.
- `Config::load_config`: reading the file and parsing its JSON (serde_json) are out of scope.
- `process_response_headers`: it writes rate-limit headers to the debug log and, with debug logging on, panics on a header value that is not visible ASCII. Logging is not modelled, so neither is that panic.
- Logging in general is not modelled.
- `Method::from_bytes(..).unwrap()` in `query`: every caller in the core passes `"GET"`, which is always valid.
- `try_clone().unwrap()` in `query_listing`: the request is cloned before each page. It has no streaming body, so the clone cannot fail.
- JSON parsing and serialisation: bodies arrive already parsed or marked unparsable. The parser is not modelled.
- Floating-point JSON numbers are not modelled; numbers are integers.
- `Pagination.QueryListing`: the running item count is an unbounded natural. In the source it is a `u64` that starts at the descriptor's `count`, and the `count` setter accepts any `u64` (src/query_listing.rs:74-77). A descriptor count within a few items of `u64::MAX` therefore overflows `count += 1` (src/lib.rs:365). A debug build panics there, and a release build wraps to 0, so the next page omits `count` (src/lib.rs:347-349). Neither is modelled: the model keeps counting past 2^64 and sends that number.
- `Subreddits.TopRequest`: the `u64` count is an unbounded natural. `get_top` only compares and divides it, so this changes nothing.
- `Subreddits.GetTop`: the `count as usize` cast in `take` is taken as lossless, as it is on 64-bit targets.
- Header maps: `HeaderMap` is modelled as an ordered list of name/value pairs, with lookup by first occurrence. Header-name case folding is not modelled, because the client only uses the lower-case constant names.
- The `Post`, `Comment` and `User` models are not part of this model.
- `Subreddit`'s reference back to the client is not modelled. A `Subreddit` is its name, and `GetTop` takes the client as a parameter.

=== FILE: client.dfy ===
/**
 * The authenticated client (`Api` in lib.rs): its configuration, the cached
 * access token and "who am I" identity, the header and URL shaping every
 * request goes through, the single-request `query`, and login.
 */
module Client {
  import opened Optional
  import opened Text
  import opened Json
  import opened Errors
  import opened Http

  datatype Config = Config(
    username: string,
    password: string,
    userAgent: string,
    clientId: string,
    clientSecret: string)

  datatype AccessTokenResponse = AccessTokenResponse(
    token: string,
    tokenType: string,
    expiresIn: nat,
    scope: string)

  /** The client state; the transport handle is not modelled. */
  datatype Api = Api(config: Config, accessToken: Option<AccessTokenResponse>, whoami: Option<Value>)

  /** The root every request path is appended to. */
  const ApiBase: string := "https://oauth.reddit.com"
  /** The placeholder in a path that stands for the logged-in account's name. */
  const UsernameMacro: string := "{username}"
  const UserAgentHeader: string := "user-agent"
  const AuthorizationHeader: string := "authorization"
  const BearerPrefix: string := "bearer "

  /** A client that has not logged in. */
  function New(config: Config): (api: Api)
    ensures api.config == config
    ensures api.accessToken == None && api.whoami == None
  {
    Api(config, None, None)
  }

  /**
   * The account name from the cached identity: absent before login, and a
   * panic when the identity has no string `name` field.
   */
  function GetUsername(whoami: Option<Value>): (r: Outcome<Option<string>>)
    ensures !r.Err?
    ensures whoami.None? ==> r == Ok(None)
    ensures whoami.Some? ==> (r.Ok? <==> Get(whoami.value, "name").JString?)
    ensures whoami.Some? && r.Ok? ==> r.value == Some(Get(whoami.value, "name").s)
  {
    match whoami
    case None => Ok(None)
    case Some(me) =>
      match AsStr(Get(me, "name"))
      case None => Panic("identity has no string name")
      case Some(name) => Ok(Some(name))
  }

  /**
   * The characters a header value may hold: tab, and everything from space
   * upwards except DEL (the rule of `HeaderValue::from_str`).
   */
  predicate IsHeaderChar(c: char) {
    c as int == 9 || (32 <= c as int && c as int != 127)
  }

  predicate IsHeaderValue(s: string) {
    forall i :: 0 <= i < |s| ==> IsHeaderChar(s[i])
  }

  lemma BearerValueValid(token: string)
    ensures IsHeaderValue(BearerPrefix + token) <==> IsHeaderValue(token)
  {
    var v := BearerPrefix + token;
    if IsHeaderValue(token) {
      forall i | 0 <= i < |v| ensures IsHeaderChar(v[i]) {
        if i >= |BearerPrefix| {
          assert v[i] == token[i - |BearerPrefix|];
        }
      }
    }
    if IsHeaderValue(v) {
      forall i | 0 <= i < |token| ensures IsHeaderChar(token[i]) {
        assert token[i] == v[i + |BearerPrefix|];
      }
    }
  }

  /**
   * The headers of every request: always the User-Agent from the
   * configuration, and the bearer token (section 2.1 of RFC 6750) only when
   * one is cached. A value with a forbidden character panics.
   */
  function GetHeaders(api: Api): (r: Outcome<Pairs>)
    ensures !r.Err?
    ensures r.Ok? <==> IsHeaderValue(api.config.userAgent)
                       && (api.accessToken.Some? ==> IsHeaderValue(api.accessToken.value.token))
    ensures r.Ok? ==> Lookup(r.value, UserAgentHeader) == Some(api.config.userAgent)
    ensures r.Ok? ==> (Lookup(r.value, AuthorizationHeader).Some? <==> api.accessToken.Some?)
    ensures r.Ok? && api.accessToken.Some? ==>
              Lookup(r.value, AuthorizationHeader) == Some(BearerPrefix + api.accessToken.value.token)
    ensures r.Ok? ==> |r.value| == (if api.accessToken.Some? then 2 else 1)
  {
    var ua := (UserAgentHeader, api.config.userAgent);
    if !IsHeaderValue(api.config.userAgent) then Panic("invalid User-Agent header value")
    else match api.accessToken
      case None => Ok([ua])
      case Some(t) =>
        BearerValueValid(t.token);
        if IsHeaderValue(BearerPrefix + t.token) then Ok([ua, (AuthorizationHeader, BearerPrefix + t.token)])
        else Panic("invalid Authorization header value")
  }

  /**
   * The full URL of a relative path: every `{username}` replaced by the
   * cached account name, then the API root and a slash prepended. A path
   * with the placeholder panics when no identity is cached.
   */
  function ReformatPath(whoami: Option<Value>, path: string): (r: Outcome<string>)
    ensures !r.Err?
    ensures !Contains(path, UsernameMacro) ==> r == Ok(ApiBase + "/" + path)
    ensures Contains(path, UsernameMacro) ==> (r.Ok? <==> GetUsername(whoami).Ok? && GetUsername(whoami).value.Some?)
    ensures Contains(path, UsernameMacro) && r.Ok? ==>
              var name := GetUsername(whoami).value.value;
              r.value == ApiBase + "/" + ReplaceAll(path, UsernameMacro, name)
              && Contains(r.value[|ApiBase| + 1..], name)
  {
    if Contains(path, UsernameMacro) then
      match GetUsername(whoami)
      case Ok(Some(name)) =>
        ReplaceInserts(path, UsernameMacro, name);
        Ok(ApiBase + "/" + ReplaceAll(path, UsernameMacro, name))
      case Ok(None) => Panic("no identity cached for {username}")
      case Err(e) => Err(e)
      case Panic(why) => Panic(why)
    else
      Ok(ApiBase + "/" + path)
  }

  /**
   * The request `query` sends: the method as given, the rewritten URL, the
   * client's headers, the query pairs when given and the form when given.
   */
  function BuildRequest(api: Api, verb: string, path: string, query: Option<Pairs>,
                        form: Option<map<string, string>>): (r: Outcome<HttpRequest>)
    ensures !r.Err?
    ensures r.Ok? <==> ReformatPath(api.whoami, path).Ok? && GetHeaders(api).Ok?
    ensures r.Ok? ==> r.value.verb == verb && r.value.url == ReformatPath(api.whoami, path).value
                      && r.value.headers == GetHeaders(api).value && r.value.form == form
    ensures r.Ok? ==> r.value.query == query.GetOr([])
  {
    var url :- ReformatPath(api.whoami, path);
    var headers :- GetHeaders(api);
    Ok(HttpRequest(verb, url, headers, query.GetOr([]), form))
  }

  /**
   * `Api::query`: one request, sent as the operation's only (0-th) call.
   * The status is not inspected here; a transport failure is an error.
   */
  function Query(api: Api, verb: string, path: string, query: Option<Pairs>,
                 form: Option<map<string, string>>, fetch: Fetcher): (r: Outcome<Response>)
    ensures BuildRequest(api, verb, path, query, form).Panic? ==> r.Panic?
    ensures BuildRequest(api, verb, path, query, form).Ok? ==>
              var reply := fetch(0, BuildRequest(api, verb, path, query, form).value);
              (reply.Delivered? ==> r == Ok(reply.response))
              && (reply.TransportFailure? ==> r == Err(FromWrapped(Transport, reply.debug)))
  {
    var req :- BuildRequest(api, verb, path, query, form);
    match fetch(0, req)
    case Delivered(resp) => Ok(resp)
    case TransportFailure(debug) => Err(FromWrapped(Transport, debug))
  }

  const WhoamiPath: string := "api/v1/me"

  /** The identity endpoint's body as a JSON value, whatever its status. */
  function GetWhoami(api: Api, fetch: Fetcher): (r: Outcome<Value>)
    ensures var q := Query(api, "GET", WhoamiPath, None, None, fetch);
            (r.Ok? <==> q.Ok? && q.value.body.Parsed?)
            && (r.Ok? ==> r.value == q.value.body.json)
            && (q.Ok? && q.value.body.Unparsable? ==> r == Err(FromWrapped(Transport, q.value.body.debug)))
            && (!q.Ok? ==> (r.Err? <==> q.Err?) && (q.Err? ==> r.error == q.error))
  {
    var resp :- Query(api, "GET", WhoamiPath, None, None, fetch);
    match resp.body
    case Parsed(v) => Ok(v)
    case Unparsable(debug) => Err(FromWrapped(Transport, debug))
  }

  /** The outcome of the token exchange: the decoded token, or the library error that stopped it. */
  datatype TokenReply = Token(response: AccessTokenResponse) | TokenFailure(debug: string)

  datatype Login = Login(api: Api, outcome: Outcome<()>)

  /**
   * `do_login`: cache the token, then fetch and cache the identity using
   * it. A failure at either step leaves whatever was already cached.
   */
  function DoLogin(api: Api, tokenReply: TokenReply, fetch: Fetcher): (l: Login)
    ensures l.api.config == api.config
    ensures tokenReply.TokenFailure? ==>
              l.api == api && l.outcome == Err(FromWrapped(Transport, tokenReply.debug))
    ensures tokenReply.Token? ==> l.api.accessToken == Some(tokenReply.response)
    ensures tokenReply.Token? ==>
              var who := GetWhoami(api.(accessToken := Some(tokenReply.response)), fetch);
              && (l.outcome.Ok? <==> who.Ok?) && (who.Ok? ==> l.api.whoami == Some(who.value))
              && (!who.Ok? ==> (l.outcome.Err? <==> who.Err?) && (who.Err? ==> l.outcome.error == who.error))
    ensures l.outcome.Ok? ==> tokenReply.Token? && l.api.whoami.Some?
    ensures !l.outcome.Ok? ==> l.api.whoami == api.whoami
  {
    match tokenReply
    case TokenFailure(debug) => Login(api, Err(FromWrapped(Transport, debug)))
    case Token(t) =>
      var withToken := api.(accessToken := Some(t));
      match GetWhoami(withToken, fetch)
      case Ok(me) => Login(withToken.(whoami := Some(me)), Ok(()))
      case Err(e) => Login(withToken, Err(e))
      case Panic(why) => Login(withToken, Panic(why))
  }
}

module ClientProperties {
  import opened Optional
  import opened Text
  import opened Json
  import opened Errors
  import opened Http
  import opened Client

  /** A client that has not logged in sends no Authorization header. */
  lemma NewSendsNoAuthorization(config: Config)
    ensures GetHeaders(New(config)).Ok? ==> Lookup(GetHeaders(New(config)).value, AuthorizationHeader) == None
    ensures GetHeaders(New(config)).Ok? <==> IsHeaderValue(config.userAgent)
  {
  }

  /** The identity fetch of a login already carries the freshly cached token. */
  lemma WhoamiRequestCarriesNewToken(api: Api, t: AccessTokenResponse)
    requires IsHeaderValue(api.config.userAgent) && IsHeaderValue(t.token)
    ensures var req := BuildRequest(api.(accessToken := Some(t)), "GET", WhoamiPath, None, None);
            req.Ok? ==> Lookup(req.value.headers, AuthorizationHeader) == Some(BearerPrefix + t.token)
  {
  }

  /**
   * A fresh client whose identity fetch fails keeps the token but no
   * identity: login is not all-or-nothing.
   */
  lemma LoginKeepsTokenWhenWhoamiFails(config: Config, t: AccessTokenResponse, fetch: Fetcher)
    requires !GetWhoami(New(config).(accessToken := Some(t)), fetch).Ok?
    ensures var l := DoLogin(New(config), Token(t), fetch);
            !l.outcome.Ok? && l.api.accessToken == Some(t) && l.api.whoami == None
  {
  }

  /** After a successful login, every later request carries the bearer token. */
  lemma LoginAuthorizesLaterRequests(api: Api, t: AccessTokenResponse, fetch: Fetcher)
    requires DoLogin(api, Token(t), fetch).outcome.Ok?
    ensures var h := GetHeaders(DoLogin(api, Token(t), fetch).api);
            h.Ok? ==> Lookup(h.value, AuthorizationHeader) == Some(BearerPrefix + t.token)
  {
  }

  /** The identity body of the login test: `{"name": "test-name"}`. */
  const TestIdentity: Value := JObject(map["name" := JString("test-name")])

  /** A server answering every request with the test identity hands it to the identity fetch. */
  lemma WhoamiReadsTestIdentity(api: Api, fetch: Fetcher)
    requires GetHeaders(api).Ok?
    requires forall n, req :: fetch(n, req) == Delivered(Response(200, Parsed(TestIdentity)))
    ensures GetWhoami(api, fetch) == Ok(TestIdentity)
  {
    AbsentFirstChar(WhoamiPath, UsernameMacro);
  }

  /** A login answered with the test identity makes "test-name" the account name. */
  lemma LoginThenUsername(config: Config, t: AccessTokenResponse, fetch: Fetcher)
    requires IsHeaderValue(config.userAgent) && IsHeaderValue(t.token)
    requires forall n, req :: fetch(n, req) == Delivered(Response(200, Parsed(TestIdentity)))
    ensures var l := DoLogin(New(config), Token(t), fetch);
            l.outcome.Ok? && GetUsername(l.api.whoami) == Ok(Some("test-name"))
  {
    var withToken := New(config).(accessToken := Some(t));
    BearerValueValid(t.token);
    WhoamiReadsTestIdentity(withToken, fetch);
    assert Get(TestIdentity, "name") == JString("test-name");
  }
}

=== FILE: errors.dfy ===
/**
 * The library's single error type, `ApiError`, its rendering, and the
 * conversions from the errors of the libraries it wraps. A Rust panic
 * (an `unwrap` on a missing value) is not an `ApiError`; `Outcome`
 * keeps the two apart.
 */
module Errors {
  import opened Text

  /** `source` names the failing library; it is empty for errors the client raises itself. */
  datatype ApiError = ApiError(source: string, message: string)

  /** The libraries whose errors are wrapped, each with a fixed tag. */
  datatype Origin = Transport | Io | Decode | InvalidMethod

  function Tag(o: Origin): (t: string)
    ensures |t| > 0
  {
    match o
    case Transport => "reqwest::Error"
    case Io => "std::io::Error"
    case Decode => "serde_json::error::Error"
    case InvalidMethod => "http::method::InvalidMethod"
  }

  lemma TagsDistinct(o1: Origin, o2: Origin)
    requires Tag(o1) == Tag(o2)
    ensures o1 == o2
  {
  }

  /**
   * Wrapping a library error: the tag of its origin, and the error's
   * debug text (`format!("{:?}", error)`) as the message.
   */
  function FromWrapped(o: Origin, debug: string): (e: ApiError)
    ensures e.source != "" && e.message == debug
    ensures e.source == Tag(o)
  {
    ApiError(Tag(o), debug)
  }

  /** `From<String>`: an error the client raises itself, with no source. */
  function FromMessage(message: string): (e: ApiError)
    ensures e.source == "" && e.message == message
  {
    ApiError("", message)
  }

  const PlainPrefix: string := "API error: "

  /** `Display::fmt`. */
  function Display(e: ApiError): (s: string)
    ensures StartsWith(s, "API error")
    ensures e.source == "" ==> StartsWith(s, PlainPrefix) && s[|PlainPrefix|..] == e.message
    ensures e.source != "" ==> StartsWith(s, "API error from '" + e.source + "': ")
                               && s[|"API error from '" + e.source + "': "|..] == e.message
    ensures |s| >= |e.message| && s[|s| - |e.message|..] == e.message
  {
    if e.source == "" then PlainPrefix + e.message
    else "API error from '" + e.source + "': " + e.message
  }

  /** The rendering tells whether the error has a source: the tenth character is ':' exactly when it has none. */
  lemma DisplayShowsWhetherSourced(e: ApiError)
    ensures Display(e)[9] == ':' <==> e.source == ""
  {
  }

  /** Two renderings are equal only for errors with the same kind of source, and plain errors are recovered from their rendering. */
  lemma DisplayDeterminesPlainError(e1: ApiError, e2: ApiError)
    requires Display(e1) == Display(e2)
    ensures e1.source == "" <==> e2.source == ""
    ensures e1.source == "" ==> e1 == e2
  {
    DisplayShowsWhetherSourced(e1);
    DisplayShowsWhetherSourced(e2);
  }

  /** A wrapped library error always renders in the "from '<tag>'" form. */
  lemma WrappedRendersWithTag(o: Origin, debug: string)
    ensures Display(FromWrapped(o, debug)) == "API error from '" + Tag(o) + "': " + debug
    ensures Display(FromWrapped(o, debug))[9] != ':'
  {
  }

  /** An error from a plain message renders as "API error: <message>". */
  lemma MessageRendersPlain(message: string)
    ensures Display(FromMessage(message)) == PlainPrefix + message
  {
  }

  /**
   * What an operation of the client ends in: a value, an `ApiError`
   * returned to the caller, or a panic (an `unwrap` on a missing value).
   */
  datatype Outcome<+T> = Ok(value: T) | Err(error: ApiError) | Panic(reason: string) {

    predicate IsFailure() {
      !Ok?
    }

    function PropagateFailure<U>(): (r: Outcome<U>)
      requires !Ok?
      ensures r.Err? == Err? && r.Panic? == Panic?
      ensures Err? ==> r.error == error
      ensures Panic? ==> r.reason == reason
    {
      if Err? then Err(error) else Panic(reason)
    }

    function Extract(): T
      requires Ok?
    {
      value
    }
  }
}

=== FILE: http.dfy ===
/**
 * The HTTP exchange as the client sees it, with the transport replaced by
 * an oracle: a request is a method, a URL, headers, query pairs and an
 * optional form; the reply is a status with a decoded (or undecodable)
 * body, or a transport failure.
 */
module Http {
  import opened Optional
  import opened Text
  import opened Json

  /** A status code as the `http` crate holds it: three decimal digits. */
  type StatusCode = s: nat | 100 <= s <= 999 witness 200

  /** The 4xx class (section 15.5 of RFC 9110). */
  predicate IsClientError(s: StatusCode) {
    400 <= s < 500
  }

  /** The 5xx class (section 15.6 of RFC 9110). */
  predicate IsServerError(s: StatusCode) {
    500 <= s < 600
  }

  /** An ordered list of name/value pairs: headers or query parameters. */
  type Pairs = seq<(string, string)>

  /** The value paired with the first occurrence of `key`, if any. */
  function Lookup(ps: Pairs, key: string): (r: Option<string>)
    ensures r.Some? ==> (key, r.value) in ps
    ensures r.None? ==> forall i :: 0 <= i < |ps| ==> ps[i].0 != key
  {
    if |ps| == 0 then None
    else if ps[0].0 == key then Some(ps[0].1)
    else Lookup(ps[1..], key)
  }

  /** Looking up in `a + b` looks in `a` first, then in `b`. */
  lemma {:induction false} LookupAppend(a: Pairs, b: Pairs, key: string)
    ensures Lookup(a + b, key) == LookupEither(a, Lookup(b, key), key)
    decreases |a|
  {
    if |a| > 0 {
      assert (a + b)[0] == a[0];
      if a[0].0 != key {
        assert (a + b)[1..] == a[1..] + b;
        LookupAppend(a[1..], b, key);
      }
    } else {
      assert a + b == b;
    }
  }

  /** The first value for `key` in `a`, or `otherwise` when `a` has none. */
  function LookupEither(a: Pairs, otherwise: Option<string>, key: string): Option<string> {
    if Lookup(a, key).Some? then Lookup(a, key) else otherwise
  }

  /** The names of a list of pairs, in order. */
  function Keys(ps: Pairs): (ks: seq<string>)
    ensures |ks| == |ps| && forall i :: 0 <= i < |ps| ==> ks[i] == ps[i].0
  {
    seq(|ps|, i requires 0 <= i < |ps| => ps[i].0)
  }

  lemma KeysAppend(a: Pairs, b: Pairs)
    ensures Keys(a + b) == Keys(a) + Keys(b)
  {
  }

  /** `verb` is the HTTP method (GET, POST, ...). */
  datatype HttpRequest = HttpRequest(
    verb: string,
    url: string,
    headers: Pairs,
    query: Pairs,
    form: Option<map<string, string>>)

  /** A body decoded as JSON, or the decoder's debug text when it could not be. */
  datatype Body = Parsed(json: Value) | Unparsable(debug: string)

  datatype Response = Response(status: StatusCode, body: Body)

  datatype Reply = Delivered(response: Response) | TransportFailure(debug: string)

  /** The network: the reply to the n-th request (counting from 0) an operation sends. */
  type Fetcher = (nat, HttpRequest) -> Reply

  const ServerErrorPrefix: string := "Server error, code "

  /** The message of the error raised for a 4xx or 5xx status. */
  function ServerErrorMessage(s: StatusCode): (m: string)
    ensures StartsWith(m, ServerErrorPrefix)
    ensures AllDigits(m[|ServerErrorPrefix|..]) && |m| == |ServerErrorPrefix| + 3
  {
    ThreeDigits(s);
    ServerErrorPrefix + DecimalString(s)
  }

  lemma {:induction false} ThreeDigits(s: StatusCode)
    ensures |DecimalString(s)| == 3
  {
    assert DecimalString(s) == DecimalString(s / 100) + [DigitChar((s / 10) % 10)] + [DigitChar(s % 10)];
  }

  /** The status code can be read back from the message. */
  lemma ServerErrorMessageNamesStatus(s: StatusCode)
    ensures ParseDecimal(ServerErrorMessage(s)[|ServerErrorPrefix|..]) == s
  {
    var m := ServerErrorMessage(s);
    assert m[|ServerErrorPrefix|..] == DecimalString(s);
    DecimalRoundTrip(s);
  }
}

=== FILE: json.dfy ===
/**
 * The decoded JSON tree the client hands back (`serde_json::Value`), with
 * the three accessors the core uses: indexing by key, `as_str` and
 * `as_array`. Numbers are kept as integers.
 */
module Json {
  import opened Optional

  datatype Value =
    | JNull
    | JBool(b: bool)
    | JNumber(n: int)
    | JString(s: string)
    | JArray(elems: seq<Value>)
    | JObject(fields: map<string, Value>)

  /** `v[key]`: the field's value, or null when `v` is not an object or lacks the key. */
  function Get(v: Value, key: string): (r: Value)
    ensures v.JObject? && key in v.fields ==> r == v.fields[key]
    ensures !(v.JObject? && key in v.fields) ==> r == JNull
  {
    if v.JObject? && key in v.fields then v.fields[key] else JNull
  }

  /** `v.as_str()`: present exactly for string values. */
  function AsStr(v: Value): (r: Option<string>)
    ensures r.Some? <==> v.JString?
    ensures r.Some? ==> r.value == v.s
  {
    if v.JString? then Some(v.s) else None
  }

  /** `v.as_array()`: present exactly for array values. */
  function AsArray(v: Value): (r: Option<seq<Value>>)
    ensures r.Some? <==> v.JArray?
    ensures r.Some? ==> r.value == v.elems
  {
    if v.JArray? then Some(v.elems) else None
  }
}

=== FILE: optional.dfy ===
/** The absent-or-present value that Rust spells `Option<T>`. */
module Optional {

  datatype Option<+T> = None | Some(value: T) {

    /** The value when present, `default` otherwise (Rust's `unwrap_or`). */
    function GetOr(default: T): (r: T)
      ensures Some? ==> r == value
      ensures None? ==> r == default
    {
      match this
      case Some(v) => v
      case None => default
    }
  }
}

=== FILE: pagination.dfy ===
/**
 * `Api::query_listing`: the cursor-pagination engine. It sends exactly
 * `requests` GET requests, one per page, threading the `after` cursor of
 * each page into the next request and keeping a running item count, and
 * concatenates the children of every page. A 4xx or 5xx status ends the
 * whole fetch with an error and no items.
 */
module Pagination {
  import opened Optional
  import opened Text
  import opened Json
  import opened Errors
  import opened Http
  import opened ListingRequest
  import opened Client

  /** The outcome of a listing fetch together with every request it sent, in order. */
  datatype Listing = Listing(outcome: Outcome<seq<Value>>, sent: seq<HttpRequest>)

  /**
   * The listing parameters of one page: the page size, then the cursor when
   * there is one, then the running count when it is non-zero, then
   * `show=all` when hidden items are shown.
   */
  function ListingParams(limit: nat, after: string, count: nat, showAll: bool): (ps: Pairs)
    ensures 1 <= |ps| <= 4 && ps[0] == ("limit", DecimalString(limit))
  {
    [("limit", DecimalString(limit))]
    + (OptionalParam(after != "", ("after", after))
       + (OptionalParam(count > 0, ("count", DecimalString(count)))
          + OptionalParam(showAll, ("show", "all"))))
  }

  /**
   * The request for one page. The descriptor's extra parameters are added
   * only when there are none, so they never reach the request.
   */
  function PageRequest(url: string, headers: Pairs, ql: QueryListingRequest,
                       after: string, count: nat): (req: HttpRequest)
    ensures req.verb == "GET" && req.url == url && req.headers == headers && req.form == None
  {
    var extra := if |ql.params| == 0 then ql.params else [];
    HttpRequest("GET", url, headers, extra + ListingParams(ql.limit, after, count, ql.showAll), None)
  }

  /** What one page's reply means for the loop. */
  datatype PageStep =
    | Next(after: string, children: seq<Value>)
    | Abort(error: ApiError)
    | Crash(reason: string)

  /**
   * Reading one page's reply: a transport failure or an undecodable body is
   * a library error, a 4xx/5xx status is an error naming the status, and a
   * body whose `data.after` is not a string or whose `data.children` is not
   * an array panics.
   */
  function ReadPage(reply: Reply): (st: PageStep)
    ensures st.Abort? <==> reply.TransportFailure?
                           || IsClientError(reply.response.status) || IsServerError(reply.response.status)
                           || reply.response.body.Unparsable?
    ensures st.Crash? ==> reply.Delivered? && reply.response.body.Parsed?
  {
    match reply
    case TransportFailure(debug) => Abort(FromWrapped(Transport, debug))
    case Delivered(Response(status, body)) =>
      if IsClientError(status) || IsServerError(status) then
        Abort(FromMessage(ServerErrorMessage(status)))
      else
        match body
        case Unparsable(debug) => Abort(FromWrapped(Transport, debug))
        case Parsed(v) =>
          match AsStr(Get(Get(v, "data"), "after"))
          case None => Crash("data.after is not a string")
          case Some(next) =>
            match AsArray(Get(Get(v, "data"), "children"))
            case None => Crash("data.children is not an array")
            case Some(items) => Next(next, items)
  }

  /**
   * A page continues the loop exactly when it was delivered with a status
   * outside 4xx/5xx and a body whose `data.after` is a string and whose
   * `data.children` is an array; a 4xx/5xx status aborts with the status
   * in the message, whatever the body.
   */
  lemma ReadPageMeaning(reply: Reply)
    ensures var st := ReadPage(reply);
      && (reply.TransportFailure? ==> st == Abort(FromWrapped(Transport, reply.debug)))
      && (reply.Delivered? && (IsClientError(reply.response.status) || IsServerError(reply.response.status)) ==>
            st == Abort(ApiError("", ServerErrorPrefix + DecimalString(reply.response.status))))
      && (st.Next? <==>
            && reply.Delivered?
            && !IsClientError(reply.response.status) && !IsServerError(reply.response.status)
            && reply.response.body.Parsed?
            && Get(Get(reply.response.body.json, "data"), "after").JString?
            && Get(Get(reply.response.body.json, "data"), "children").JArray?)
      && (st.Next? ==>
            var data := Get(reply.response.body.json, "data");
            st.after == Get(data, "after").s && st.children == Get(data, "children").elems)
      && (reply.Delivered? && !IsClientError(reply.response.status) && !IsServerError(reply.response.status) ==>
            && (reply.response.body.Unparsable? ==> st == Abort(FromWrapped(Transport, reply.response.body.debug)))
            && (reply.response.body.Parsed? && !st.Next? ==> st.Crash?))
  {
  }

  /** The outcome a page that stops the loop ends the fetch with. */
  function StopOutcome(st: PageStep): (r: Outcome<seq<Value>>)
    requires !st.Next?
    ensures st.Abort? ==> r == Err(st.error)
    ensures st.Crash? ==> r == Panic(st.reason)
  {
    if st.Abort? then Err(st.error) else Panic(st.reason)
  }

  /** How the loop reads the reply to its n-th request. */
  type PageReader = (nat, HttpRequest) -> PageStep

  /** Reading every reply of a fetch with `ReadPage`. */
  function Reader(fetch: Fetcher): (read: PageReader)
    ensures forall n, req :: read(n, req) == ReadPage(fetch(n, req))
  {
    (n: nat, req: HttpRequest) => ReadPage(fetch(n, req))
  }

  /** Pages `k` to `ql.requests - 1`, starting from cursor `after` and count `count`. */
  function Pages(read: PageReader, url: string, headers: Pairs, ql: QueryListingRequest,
                 k: nat, after: string, count: nat): (l: Listing)
    requires k <= ql.requests
    ensures |l.sent| <= ql.requests - k
    ensures l.outcome.Ok? ==> |l.sent| == ql.requests - k
    ensures !l.outcome.Ok? ==> |l.sent| > 0
    decreases ql.requests - k
  {
    if k == ql.requests then Listing(Ok([]), [])
    else
      var req := PageRequest(url, headers, ql, after, count);
      var st := read(k, req);
      if !st.Next? then Listing(StopOutcome(st), [req])
      else
        var rest := Pages(read, url, headers, ql, k + 1, st.after, count + |st.children|);
        Listing(Prepend(st.children, rest.outcome), [req] + rest.sent)
  }

  /** The starting cursor: the descriptor's, or the empty string when it has none. */
  function InitialCursor(ql: QueryListingRequest): string {
    ql.after.GetOr("")
  }

  /**
   * `query_listing`: rewrite the path and build the headers once (either
   * may panic), then fetch the pages.
   */
  function QueryListing(api: Api, ql: QueryListingRequest, fetch: Fetcher): (l: Listing)
    ensures |l.sent| <= ql.requests
    ensures l.outcome.Ok? ==> |l.sent| == ql.requests
    ensures !(ReformatPath(api.whoami, ql.path).Ok? && GetHeaders(api).Ok?) ==> l.outcome.Panic? && l.sent == []
  {
    match ReformatPath(api.whoami, ql.path)
    case Ok(url) =>
      (match GetHeaders(api)
       case Ok(headers) => Pages(Reader(fetch), url, headers, ql, 0, InitialCursor(ql), ql.count)
       case Err(e) => Listing(Err(e), [])
       case Panic(why) => Listing(Panic(why), []))
    case Err(e) => Listing(Err(e), [])
    case Panic(why) => Listing(Panic(why), [])
  }

  // ---------------------------------------------------------------------
  // An independent description of the loop, over the replies the requests
  // received, and the theorem that the engine follows it.
  // ---------------------------------------------------------------------

  /** How each sent request's reply reads, when the n-th sent request is the (k + n)-th call. */
  function StepsFrom(read: PageReader, k: nat, sent: seq<HttpRequest>): (st: seq<PageStep>)
    ensures |st| == |sent|
  {
    seq(|sent|, i requires 0 <= i < |sent| => read(k + i, sent[i]))
  }

  /** The children of a page, none for a page that stopped the loop. */
  function Children(st: PageStep): seq<Value> {
    if st.Next? then st.children else []
  }

  /** The in-order concatenation of the children of the pages. */
  function Received(steps: seq<PageStep>): seq<Value>
    decreases |steps|
  {
    if |steps| == 0 then [] else Children(steps[0]) + Received(steps[1..])
  }

  /** The cursor the i-th page is requested with: the initial one, then the previous page's `after`. */
  function CursorBefore(init: string, steps: seq<PageStep>, i: nat): string
    requires i <= |steps|
  {
    if i == 0 then init
    else if steps[i - 1].Next? then steps[i - 1].after
    else ""
  }

  /** The count the i-th page is requested with: the initial count plus every child received before it. */
  function CountBefore(init: nat, steps: seq<PageStep>, i: nat): nat
    requires i <= |steps|
  {
    init + |Received(steps[..i])|
  }

  /** Each sent request is the page request for the cursor and count the loop had reached. */
  predicate RequestsFollow(sent: seq<HttpRequest>, steps: seq<PageStep>, url: string, headers: Pairs,
                           ql: QueryListingRequest, after: string, count: nat)
    requires |steps| == |sent|
  {
    forall i :: 0 <= i < |sent| ==>
      sent[i] == PageRequest(url, headers, ql, CursorBefore(after, steps, i), CountBefore(count, steps, i))
  }

  /**
   * Only the last page may stop the loop; a successful fetch read all
   * `remaining` pages and returns their children in order, a failed one
   * ends with what its last page read.
   */
  predicate StopsAtFailure(l: Listing, steps: seq<PageStep>, remaining: nat)
    requires |steps| == |l.sent|
  {
    && |l.sent| <= remaining
    && (forall i :: 0 <= i < |steps| - 1 ==> steps[i].Next?)
    && (l.outcome.Ok? ==> |l.sent| == remaining
                          && (forall i :: 0 <= i < |steps| ==> steps[i].Next?)
                          && l.outcome.value == Received(steps))
    && (!l.outcome.Ok? ==> |steps| > 0 && !steps[|steps| - 1].Next?
                           && l.outcome == StopOutcome(steps[|steps| - 1]))
  }

  /** The trace a run of the loop from cursor `after` and count `count` must have. */
  predicate FollowsLoop(l: Listing, steps: seq<PageStep>, url: string, headers: Pairs,
                        ql: QueryListingRequest, remaining: nat, after: string, count: nat)
    requires |steps| == |l.sent|
  {
    RequestsFollow(l.sent, steps, url, headers, ql, after, count) && StopsAtFailure(l, steps, remaining)
  }

  lemma ReceivedShift(steps: seq<PageStep>, i: nat)
    requires 1 <= i <= |steps|
    ensures Received(steps[..i]) == Children(steps[0]) + Received(steps[1..][..i - 1])
  {
    assert steps[..i][1..] == steps[1..][..i - 1];
  }

  lemma StepsShift(read: PageReader, k: nat, req: HttpRequest, rest: seq<HttpRequest>)
    ensures StepsFrom(read, k, [req] + rest) == [read(k, req)] + StepsFrom(read, k + 1, rest)
  {
    var a := StepsFrom(read, k, [req] + rest);
    var b := [read(k, req)] + StepsFrom(read, k + 1, rest);
    forall i | 0 <= i < |a| ensures a[i] == b[i] {
      if i > 0 {
        assert ([req] + rest)[i] == rest[i - 1];
      }
    }
  }

  /** A page that continues the loop, followed by a run that follows it, follows it. */
  lemma ConsRequestsFollow(req: HttpRequest, rest: seq<HttpRequest>, st: PageStep, tail: seq<PageStep>,
                           url: string, headers: Pairs, ql: QueryListingRequest, after: string, count: nat)
    requires st.Next? && req == PageRequest(url, headers, ql, after, count)
    requires |tail| == |rest| && RequestsFollow(rest, tail, url, headers, ql, st.after, count + |st.children|)
    ensures RequestsFollow([req] + rest, [st] + tail, url, headers, ql, after, count)
  {
    var sent := [req] + rest;
    var steps := [st] + tail;
    forall i | 0 <= i < |sent|
      ensures sent[i] == PageRequest(url, headers, ql, CursorBefore(after, steps, i), CountBefore(count, steps, i))
    {
      if i == 0 {
        assert steps[..0] == [];
      } else {
        ConsRequestAt(req, rest, st, tail, url, headers, ql, after, count, i);
      }
    }
  }

  /** The i-th request after a continuing first page is the (i-1)-th of the rest, with cursor and count carried over. */
  lemma ConsRequestAt(req: HttpRequest, rest: seq<HttpRequest>, st: PageStep, tail: seq<PageStep>,
                      url: string, headers: Pairs, ql: QueryListingRequest, after: string, count: nat, i: nat)
    requires st.Next? && |tail| == |rest| && 1 <= i <= |rest|
    requires rest[i - 1] == PageRequest(url, headers, ql, CursorBefore(st.after, tail, i - 1),
                                        CountBefore(count + |st.children|, tail, i - 1))
    ensures ([req] + rest)[i] == PageRequest(url, headers, ql, CursorBefore(after, [st] + tail, i),
                                             CountBefore(count, [st] + tail, i))
  {
    var steps := [st] + tail;
    assert steps[1..] == tail;
    ReceivedShift(steps, i);
    assert CountBefore(count, steps, i) == CountBefore(count + |st.children|, tail, i - 1);
    assert CursorBefore(after, steps, i) == CursorBefore(st.after, tail, i - 1);
  }

  /** The outcome of a run whose first page continued the loop with `children`. */
  function Prepend(children: seq<Value>, rest: Outcome<seq<Value>>): Outcome<seq<Value>> {
    if rest.Ok? then Ok(children + rest.value) else rest
  }

  lemma ConsStopsAtFailure(req: HttpRequest, rest: Listing, st: PageStep, tail: seq<PageStep>, remaining: nat)
    requires st.Next? && remaining >= 1
    requires |tail| == |rest.sent| && StopsAtFailure(rest, tail, remaining - 1)
    ensures StopsAtFailure(Listing(Prepend(st.children, rest.outcome), [req] + rest.sent), [st] + tail, remaining)
  {
    var steps := [st] + tail;
    assert steps[1..] == tail;
    if rest.outcome.Ok? {
      assert Received(steps) == st.children + Received(tail);
    } else {
      assert steps[|steps| - 1] == tail[|tail| - 1];
    }
  }

  /** A page that continues the loop, followed by a run that follows the loop from there, follows it. */
  lemma ConsFollowsLoop(req: HttpRequest, rest: Listing, st: PageStep, tail: seq<PageStep>,
                        url: string, headers: Pairs, ql: QueryListingRequest, remaining: nat,
                        after: string, count: nat)
    requires st.Next? && remaining >= 1 && req == PageRequest(url, headers, ql, after, count)
    requires |tail| == |rest.sent|
    requires FollowsLoop(rest, tail, url, headers, ql, remaining - 1, st.after, count + |st.children|)
    ensures FollowsLoop(Listing(Prepend(st.children, rest.outcome), [req] + rest.sent), [st] + tail,
                        url, headers, ql, remaining, after, count)
  {
    ConsRequestsFollow(req, rest.sent, st, tail, url, headers, ql, after, count);
    ConsStopsAtFailure(req, rest, st, tail, remaining);
  }

  /** A first page that stops the loop is a run that follows it. */
  lemma StopFollowsLoop(req: HttpRequest, st: PageStep, url: string, headers: Pairs,
                        ql: QueryListingRequest, remaining: nat, after: string, count: nat)
    requires !st.Next? && remaining >= 1 && req == PageRequest(url, headers, ql, after, count)
    ensures FollowsLoop(Listing(StopOutcome(st), [req]), [st], url, headers, ql, remaining, after, count)
  {
    assert [st][..0] == [];
  }

  /** One step of the loop: the first page either stops it or is followed by the rest. */
  lemma PagesUnfold(read: PageReader, url: string, headers: Pairs, ql: QueryListingRequest,
                    k: nat, after: string, count: nat)
    requires k < ql.requests
    ensures var req := PageRequest(url, headers, ql, after, count);
            var st := read(k, req);
            var l := Pages(read, url, headers, ql, k, after, count);
            && (!st.Next? ==> l == Listing(StopOutcome(st), [req]))
            && (st.Next? ==>
                  var rest := Pages(read, url, headers, ql, k + 1, st.after, count + |st.children|);
                  l == Listing(Prepend(st.children, rest.outcome), [req] + rest.sent))
  {
  }

  /** The run of the loop from page `k` on follows its description. */
  predicate LoopFollowed(read: PageReader, url: string, headers: Pairs,
                         ql: QueryListingRequest, k: nat, after: string, count: nat)
    requires k <= ql.requests
  {
    var l := Pages(read, url, headers, ql, k, after, count);
    FollowsLoop(l, StepsFrom(read, k, l.sent), url, headers, ql, ql.requests - k, after, count)
  }

  /** A first page that stops the loop: the run is that page alone. */
  lemma PagesStopFollowLoop(read: PageReader, url: string, headers: Pairs,
                            ql: QueryListingRequest, k: nat, after: string, count: nat)
    requires k < ql.requests
    requires !read(k, PageRequest(url, headers, ql, after, count)).Next?
    ensures LoopFollowed(read, url, headers, ql, k, after, count)
  {
    var req := PageRequest(url, headers, ql, after, count);
    PagesUnfold(read, url, headers, ql, k, after, count);
    StepsShift(read, k, req, []);
    assert [req] + [] == [req];
    StopFollowsLoop(req, read(k, req), url, headers, ql, ql.requests - k, after, count);
  }

  /** A first page that continues the loop, followed by a run of the rest that follows it. */
  lemma PagesNextFollowLoop(read: PageReader, url: string, headers: Pairs,
                            ql: QueryListingRequest, k: nat, after: string, count: nat,
                            next: string, children: seq<Value>)
    requires k < ql.requests
    requires read(k, PageRequest(url, headers, ql, after, count)) == Next(next, children)
    requires LoopFollowed(read, url, headers, ql, k + 1, next, count + |children|)
    ensures LoopFollowed(read, url, headers, ql, k, after, count) == true
  {
    var l := Pages(read, url, headers, ql, k, after, count);
    var req := PageRequest(url, headers, ql, after, count);
    var st := read(k, req);
    PagesUnfold(read, url, headers, ql, k, after, count);
    var rest := Pages(read, url, headers, ql, k + 1, st.after, count + |st.children|);
    var tail := StepsFrom(read, k + 1, rest.sent);
    StepsShift(read, k, req, rest.sent);
    assert l == Listing(Prepend(st.children, rest.outcome), [req] + rest.sent);
    assert StepsFrom(read, k, l.sent) == [st] + tail;
    assert FollowsLoop(rest, tail, url, headers, ql, ql.requests - (k + 1), next, count + |children|);
    ConsFollowsLoop(req, rest, st, tail, url, headers, ql, ql.requests - k, after, count);
  }

  /** No page left to fetch: the run is empty and succeeds. */
  lemma PagesDoneFollowLoop(read: PageReader, url: string, headers: Pairs,
                            ql: QueryListingRequest, k: nat, after: string, count: nat)
    requires k == ql.requests
    ensures LoopFollowed(read, url, headers, ql, k, after, count)
  {
    assert Pages(read, url, headers, ql, k, after, count) == Listing(Ok([]), []);
  }

  /**
   * The engine follows the loop's description from any page on. The
   * conclusion is written as an equation so that it is matched against the
   * step lemmas' conclusions rather than re-derived from the description.
   */
  lemma {:induction false} PagesFollowLoop(read: PageReader, url: string, headers: Pairs,
                                           ql: QueryListingRequest, k: nat, after: string, count: nat)
    requires k <= ql.requests
    ensures LoopFollowed(read, url, headers, ql, k, after, count) == true
    decreases ql.requests - k
  {
    if k < ql.requests {
      var st := read(k, PageRequest(url, headers, ql, after, count));
      if !st.Next? {
        PagesStopFollowLoop(read, url, headers, ql, k, after, count);
      } else {
        PagesFollowLoop(read, url, headers, ql, k + 1, st.after, count + |st.children|);
        PagesNextFollowLoop(read, url, headers, ql, k, after, count, st.after, st.children);
      }
    } else {
      PagesDoneFollowLoop(read, url, headers, ql, k, after, count);
    }
  }

  /**
   * The listing fetch as a whole: it panics before sending anything when the
   * path or the headers cannot be built; otherwise it follows the loop from
   * the descriptor's cursor (or none) and count.
   */
  lemma QueryListingFollowsLoop(api: Api, ql: QueryListingRequest, fetch: Fetcher)
    ensures var l := QueryListing(api, ql, fetch);
            var url := ReformatPath(api.whoami, ql.path);
            var headers := GetHeaders(api);
            && (!(url.Ok? && headers.Ok?) ==> l.outcome.Panic? && l.sent == [])
            && (url.Ok? && headers.Ok? ==>
                  FollowsLoop(l, StepsFrom(Reader(fetch), 0, l.sent), url.value, headers.value, ql,
                              ql.requests, InitialCursor(ql), ql.count))
  {
    var url := ReformatPath(api.whoami, ql.path);
    var headers := GetHeaders(api);
    if url.Ok? && headers.Ok? {
      PagesFollowLoop(Reader(fetch), url.value, headers.value, ql, 0, InitialCursor(ql), ql.count);
    }
  }

  /** The optional part of the page parameters: `pair` when `present`, nothing otherwise. */
  function OptionalParam(present: bool, pair: (string, string)): Pairs {
    if present then [pair] else []
  }

  lemma LookupOptional(present: bool, pair: (string, string), key: string)
    ensures Lookup(OptionalParam(present, pair), key) == if present && pair.0 == key then Some(pair.1) else None
  {
  }

  /** Looking a name up in the page parameters goes through their four parts in order. */
  lemma ListingParamsLookup(limit: nat, after: string, count: nat, showAll: bool, key: string)
    ensures var a := OptionalParam(after != "", ("after", after));
            var c := OptionalParam(count > 0, ("count", DecimalString(count)));
            var sh := OptionalParam(showAll, ("show", "all"));
            Lookup(ListingParams(limit, after, count, showAll), key)
            == if key == "limit" then Some(DecimalString(limit))
               else LookupEither(a, LookupEither(c, Lookup(sh, key), key), key)
  {
    var l: Pairs := [("limit", DecimalString(limit))];
    var a := OptionalParam(after != "", ("after", after));
    var c := OptionalParam(count > 0, ("count", DecimalString(count)));
    var sh := OptionalParam(showAll, ("show", "all"));
    assert ListingParams(limit, after, count, showAll) == l + (a + (c + sh));
    LookupAppend(c, sh, key);
    LookupAppend(a, c + sh, key);
    LookupAppend(l, a + (c + sh), key);
  }

  lemma ListingParamsLookupAfter(limit: nat, after: string, count: nat, showAll: bool)
    ensures Lookup(ListingParams(limit, after, count, showAll), "after") == (if after != "" then Some(after) else None)
  {
    ListingParamsLookup(limit, after, count, showAll, "after");
    LookupOptional(showAll, ("show", "all"), "after");
    LookupOptional(count > 0, ("count", DecimalString(count)), "after");
    LookupOptional(after != "", ("after", after), "after");
  }

  lemma ListingParamsLookupCount(limit: nat, after: string, count: nat, showAll: bool)
    ensures Lookup(ListingParams(limit, after, count, showAll), "count")
            == (if count > 0 then Some(DecimalString(count)) else None)
  {
    ListingParamsLookup(limit, after, count, showAll, "count");
    LookupOptional(showAll, ("show", "all"), "count");
    LookupOptional(count > 0, ("count", DecimalString(count)), "count");
    LookupOptional(after != "", ("after", after), "count");
  }

  lemma ListingParamsLookupShow(limit: nat, after: string, count: nat, showAll: bool)
    ensures Lookup(ListingParams(limit, after, count, showAll), "show") == (if showAll then Some("all") else None)
  {
    ListingParamsLookup(limit, after, count, showAll, "show");
    LookupOptional(showAll, ("show", "all"), "show");
    LookupOptional(count > 0, ("count", DecimalString(count)), "show");
    LookupOptional(after != "", ("after", after), "show");
  }

  lemma ListingParamsOrder(limit: nat, after: string, count: nat, showAll: bool)
    ensures Keys(ListingParams(limit, after, count, showAll))
            == ["limit"] + (if after != "" then ["after"] else [])
               + (if count > 0 then ["count"] else []) + (if showAll then ["show"] else [])
  {
    var l: Pairs := [("limit", DecimalString(limit))];
    var a := OptionalParam(after != "", ("after", after));
    var c := OptionalParam(count > 0, ("count", DecimalString(count)));
    var sh := OptionalParam(showAll, ("show", "all"));
    KeysAppend(c, sh);
    KeysAppend(a, c + sh);
    KeysAppend(l, a + (c + sh));
  }

  /**
   * Read by name, the page parameters hold the page size, the cursor exactly
   * when it is non-empty, the count exactly when it is non-zero and
   * `show=all` exactly when hidden items are shown, in that order.
   */
  lemma ListingParamsDecode(limit: nat, after: string, count: nat, showAll: bool)
    ensures var q := ListingParams(limit, after, count, showAll);
            && q[0] == ("limit", DecimalString(limit))
            && Lookup(q, "limit") == Some(DecimalString(limit))
            && Lookup(q, "after") == (if after != "" then Some(after) else None)
            && Lookup(q, "count") == (if count > 0 then Some(DecimalString(count)) else None)
            && Lookup(q, "show") == (if showAll then Some("all") else None)
            && Keys(q) == ["limit"] + (if after != "" then ["after"] else [])
                          + (if count > 0 then ["count"] else []) + (if showAll then ["show"] else [])
  {
    ListingParamsLookup(limit, after, count, showAll, "limit");
    ListingParamsLookupAfter(limit, after, count, showAll);
    ListingParamsLookupCount(limit, after, count, showAll);
    ListingParamsLookupShow(limit, after, count, showAll);
    ListingParamsOrder(limit, after, count, showAll);
  }

  /** The page parameters give back the page size, cursor, count and show flag they were built from. */
  lemma ListingParamsRecoverState(limit: nat, after: string, count: nat, showAll: bool)
    ensures var q := ListingParams(limit, after, count, showAll);
            && ParseDecimal(Lookup(q, "limit").value) == limit
            && Lookup(q, "after").GetOr("") == after
            && (if Lookup(q, "count").Some? then ParseDecimal(Lookup(q, "count").value) else 0) == count
            && Lookup(q, "show").Some? == showAll
  {
    ListingParamsDecode(limit, after, count, showAll);
    DecimalRoundTrip(limit);
    DecimalRoundTrip(count);
  }

  /** A page request's query is exactly the page parameters, whatever extra parameters the descriptor has. */
  lemma PageQueryIsListingParams(url: string, headers: Pairs, ql: QueryListingRequest, after: string, count: nat)
    ensures PageRequest(url, headers, ql, after, count).query == ListingParams(ql.limit, after, count, ql.showAll)
    ensures PageRequest(url, headers, ql, after, count).verb == "GET"
  {
  }

  /** The descriptor's extra parameters make no difference to any page request. */
  lemma {:induction false} PagesIgnoreParams(read: PageReader, url: string, headers: Pairs,
                                             ql: QueryListingRequest, ps: seq<(string, string)>,
                                             k: nat, after: string, count: nat)
    requires k <= ql.requests
    ensures Pages(read, url, headers, ql.WithParams(ps), k, after, count)
            == Pages(read, url, headers, ql, k, after, count)
    decreases ql.requests - k
  {
    var ql' := ql.WithParams(ps);
    assert PageRequest(url, headers, ql', after, count) == PageRequest(url, headers, ql, after, count);
    if k < ql.requests {
      var st := read(k, PageRequest(url, headers, ql, after, count));
      if st.Next? {
        PagesIgnoreParams(read, url, headers, ql, ps, k + 1, st.after, count + |st.children|);
      }
    }
  }

  /**
   * Whatever extra parameters the descriptor carries, the listing fetch
   * sends and returns the same: they never reach a request.
   */
  lemma ParamsNeverSent(api: Api, ql: QueryListingRequest, ps: seq<(string, string)>, fetch: Fetcher)
    ensures QueryListing(api, ql.WithParams(ps), fetch) == QueryListing(api, ql, fetch)
  {
    var url := ReformatPath(api.whoami, ql.path);
    var headers := GetHeaders(api);
    if url.Ok? && headers.Ok? {
      PagesIgnoreParams(Reader(fetch), url.value, headers.value, ql, ps, 0, InitialCursor(ql), ql.count);
    }
  }

  /**
   * A 4xx or 5xx reply to any request of a listing fetch makes that request
   * the last one sent and the whole fetch an error naming the status, with
   * no items.
   */
  lemma ErrorStatusAbortsFetch(api: Api, ql: QueryListingRequest, fetch: Fetcher, i: nat)
    requires i < |QueryListing(api, ql, fetch).sent|
    requires var reply := fetch(i, QueryListing(api, ql, fetch).sent[i]);
             reply.Delivered? && (IsClientError(reply.response.status) || IsServerError(reply.response.status))
    ensures var l := QueryListing(api, ql, fetch);
            var status := fetch(i, l.sent[i]).response.status;
            i == |l.sent| - 1 && l.outcome == Err(ApiError("", ServerErrorPrefix + DecimalString(status)))
  {
    var l := QueryListing(api, ql, fetch);
    ReadPageMeaning(fetch(i, l.sent[i]));
    StopEndsFetch(api, ql, fetch, i);
  }

  /** A reply that stops the loop is the reply to the last request sent, and its reading is the fetch's outcome. */
  lemma StopEndsFetch(api: Api, ql: QueryListingRequest, fetch: Fetcher, i: nat)
    requires i < |QueryListing(api, ql, fetch).sent|
    requires !ReadPage(fetch(i, QueryListing(api, ql, fetch).sent[i])).Next?
    ensures var l := QueryListing(api, ql, fetch);
            i == |l.sent| - 1 && l.outcome == StopOutcome(ReadPage(fetch(i, l.sent[i])))
  {
    var l := QueryListing(api, ql, fetch);
    var steps := StepsFrom(Reader(fetch), 0, l.sent);
    QueryListingFollowsLoop(api, ql, fetch);
    assert steps[i] == ReadPage(fetch(i, l.sent[i]));
    StopIsLast(l, steps, ql.requests, i);
  }

  /** In a run that stops only at a failure, a page that stops the loop is the last one and decides the outcome. */
  lemma StopIsLast(l: Listing, steps: seq<PageStep>, remaining: nat, i: nat)
    requires |steps| == |l.sent| && StopsAtFailure(l, steps, remaining)
    requires i < |steps| && !steps[i].Next?
    ensures i == |steps| - 1 && l.outcome == StopOutcome(steps[i])
  {
  }

  /**
   * A reply read with a status outside 4xx/5xx whose decoded body has no
   * string `data.after` panics the whole fetch and ends it, even on the last
   * page a listing asks for, where the cursor is no longer needed.
   */
  lemma NullCursorPanics(api: Api, ql: QueryListingRequest, fetch: Fetcher, i: nat)
    requires i < |QueryListing(api, ql, fetch).sent|
    requires var reply := fetch(i, QueryListing(api, ql, fetch).sent[i]);
             && reply.Delivered?
             && !IsClientError(reply.response.status) && !IsServerError(reply.response.status)
             && reply.response.body.Parsed?
             && !Get(Get(reply.response.body.json, "data"), "after").JString?
    ensures var l := QueryListing(api, ql, fetch);
            i == |l.sent| - 1 && l.outcome.Panic?
  {
    var l := QueryListing(api, ql, fetch);
    ReadPageMeaning(fetch(i, l.sent[i]));
    StopEndsFetch(api, ql, fetch, i);
  }

  /**
   * A fetch that succeeds sent exactly `requests` page requests and returns
   * the children of all their pages in order.
   */
  lemma SuccessfulFetchReadsEveryPage(api: Api, ql: QueryListingRequest, fetch: Fetcher)
    requires QueryListing(api, ql, fetch).outcome.Ok?
    ensures var l := QueryListing(api, ql, fetch);
            var steps := StepsFrom(Reader(fetch), 0, l.sent);
            && |l.sent| == ql.requests
            && (forall i :: 0 <= i < |steps| ==> steps[i].Next?)
            && l.outcome.value == Received(steps)
  {
    QueryListingFollowsLoop(api, ql, fetch);
  }

  /** When every page has exactly `n` children, the pages together hold `n` per page. */
  lemma {:induction false} ReceivedUniformPages(steps: seq<PageStep>, n: nat)
    requires forall i :: 0 <= i < |steps| ==> steps[i].Next? && |steps[i].children| == n
    ensures |Received(steps)| == |steps| * n
    decreases |steps|
  {
    if |steps| > 0 {
      assert forall i :: 0 <= i < |steps| - 1 ==> steps[1..][i] == steps[i + 1];
      ReceivedUniformPages(steps[1..], n);
    }
  }

  /** When no page has more than `n` children, the pages together hold at most `n` per page. */
  lemma {:induction false} ReceivedBoundedPages(steps: seq<PageStep>, n: nat)
    requires forall i :: 0 <= i < |steps| ==> |Children(steps[i])| <= n
    ensures |Received(steps)| <= |steps| * n
    decreases |steps|
  {
    if |steps| > 0 {
      assert forall i :: 0 <= i < |steps| - 1 ==> steps[1..][i] == steps[i + 1];
      ReceivedBoundedPages(steps[1..], n);
      assert Received(steps) == Children(steps[0]) + Received(steps[1..]);
      assert (|steps| - 1) * n + n == |steps| * n;
    }
  }

  /**
   * Against a server that never sends more children than the page size, a
   * successful listing fetch holds at most one page's worth of items per
   * request it was allowed to send.
   */
  lemma BoundedListing(api: Api, ql: QueryListingRequest, fetch: Fetcher)
    requires forall n, req :: |Children(ReadPage(fetch(n, req)))| <= ql.limit
    ensures var l := QueryListing(api, ql, fetch);
            l.outcome.Ok? ==> |l.outcome.value| <= ql.limit * ql.requests
  {
    var l := QueryListing(api, ql, fetch);
    if l.outcome.Ok? {
      var steps := StepsFrom(Reader(fetch), 0, l.sent);
      SuccessfulFetchReadsEveryPage(api, ql, fetch);
      assert forall i :: 0 <= i < |steps| ==> steps[i] == ReadPage(fetch(i, l.sent[i]));
      ReceivedBoundedPages(steps, ql.limit);
    }
  }

  /** The first page of a fresh descriptor with page size 3 asks for `limit=3&show=all`. */
  lemma FreshDescriptorFirstQuery()
    ensures ListingParams(3, InitialCursor(ListingRequest.New("some/endpoint", 3, 1)), 0, true)
            == [("limit", "3"), ("show", "all")]
  {
    assert DecimalString(3) == "3";
  }

  /** The reply of the listing test: status 200, kind `Listing`, cursor `t3_ccccc` and three children. */
  function ThreeChildReply(a: Value, b: Value, c: Value): Reply {
    Delivered(Response(200, Parsed(JObject(map["data" :=
      JObject(map["kind" := JString("Listing"), "after" := JString("t3_ccccc"),
                 "children" := JArray([a, b, c])])]))))
  }

  /** A listing body with a cursor and three children reads as a page continuing the loop. */
  lemma ThreeChildPage(a: Value, b: Value, c: Value)
    ensures ReadPage(ThreeChildReply(a, b, c)) == Next("t3_ccccc", [a, b, c])
  {
    var data := JObject(map["kind" := JString("Listing"), "after" := JString("t3_ccccc"),
                            "children" := JArray([a, b, c])]);
    var body := JObject(map["data" := data]);
    assert Get(body, "data") == data;
    assert Get(data, "after") == JString("t3_ccccc");
    assert Get(data, "children") == JArray([a, b, c]);
  }

  /**
   * A fresh client with a valid User-Agent lists a placeholder-free path by
   * running the loop on the joined URL with the User-Agent header alone.
   */
  lemma FreshClientRunsLoop(config: Config, ql: QueryListingRequest, fetch: Fetcher)
    requires IsHeaderValue(config.userAgent)
    requires !Contains(ql.path, UsernameMacro)
    ensures QueryListing(Client.New(config), ql, fetch)
            == Pages(Reader(fetch), ApiBase + "/" + ql.path, [(UserAgentHeader, config.userAgent)],
                     ql, 0, InitialCursor(ql), ql.count)
  {
  }

  /** A server answering every request with that reply gives that page to every request. */
  lemma ThreeChildServer(a: Value, b: Value, c: Value, fetch: Fetcher)
    requires forall n, req :: fetch(n, req) == ThreeChildReply(a, b, c)
    ensures forall n, req :: ReadPage(fetch(n, req)) == Next("t3_ccccc", [a, b, c])
  {
    ThreeChildPage(a, b, c);
  }

  /** The loop over that single page returns its three children. */
  lemma ThreeChildLoop(url: string, headers: Pairs, a: Value, b: Value, c: Value, fetch: Fetcher)
    requires forall n, req :: ReadPage(fetch(n, req)) == Next("t3_ccccc", [a, b, c])
    ensures var ql := ListingRequest.New("some/endpoint", 3, 1);
            Pages(Reader(fetch), url, headers, ql, 0, "", 0)
            == Listing(Ok([a, b, c]), [PageRequest(url, headers, ql, "", 0)])
  {
    var ql := ListingRequest.New("some/endpoint", 3, 1);
    PagesUnfold(Reader(fetch), url, headers, ql, 0, "", 0);
    assert Pages(Reader(fetch), url, headers, ql, 1, "t3_ccccc", 3) == Listing(Ok([]), []);
    assert [a, b, c] + [] == [a, b, c];
  }

  /**
   * A server that answers every request with one page of three children:
   * listing `some/endpoint` with page size 3 sends one request asking for
   * `limit=3&show=all` and returns the three children.
   */
  lemma SinglePageListing(config: Config, a: Value, b: Value, c: Value, fetch: Fetcher)
    requires IsHeaderValue(config.userAgent)
    requires forall n, req :: fetch(n, req) == ThreeChildReply(a, b, c)
    ensures var l := QueryListing(Client.New(config), ListingRequest.New("some/endpoint", 3, 1), fetch);
            && l.outcome == Ok([a, b, c])
            && |l.sent| == 1
            && l.sent[0].query == [("limit", "3"), ("show", "all")]
            && l.sent[0].url == ApiBase + "/" + "some/endpoint"
  {
    var ql := ListingRequest.New("some/endpoint", 3, 1);
    var url := ApiBase + "/" + "some/endpoint";
    var headers := [(UserAgentHeader, config.userAgent)];
    SinglePageRun(config, a, b, c, fetch);
    FreshDescriptorFirstQuery();
    PageQueryIsListingParams(url, headers, ql, "", 0);
  }

  /** Against that server, the listing of the test is one request and the page's three children. */
  lemma SinglePageRun(config: Config, a: Value, b: Value, c: Value, fetch: Fetcher)
    requires IsHeaderValue(config.userAgent)
    requires forall n, req :: fetch(n, req) == ThreeChildReply(a, b, c)
    ensures var ql := ListingRequest.New("some/endpoint", 3, 1);
            QueryListing(Client.New(config), ql, fetch)
            == Listing(Ok([a, b, c]),
                       [PageRequest(ApiBase + "/" + "some/endpoint", [(UserAgentHeader, config.userAgent)], ql, "", 0)])
  {
    var ql := ListingRequest.New("some/endpoint", 3, 1);
    var url := ApiBase + "/" + "some/endpoint";
    var headers := [(UserAgentHeader, config.userAgent)];
    AbsentFirstChar("some/endpoint", UsernameMacro);
    FreshClientRunsLoop(config, ql, fetch);
    assert InitialCursor(ql) == "" && ql.count == 0;
    ThreeChildServer(a, b, c, fetch);
    ThreeChildLoop(url, headers, a, b, c, fetch);
  }
}

=== FILE: query_listing.dfy ===
/**
 * The descriptor of a paginated fetch from a listing endpoint: which path,
 * which extra query parameters, the cursor to start after, the running item
 * count, the page size, the number of pages and whether hidden items are
 * shown. It is built by `New` and then adjusted field by field.
 */
module ListingRequest {
  import opened Optional

  datatype QueryListingRequest = QueryListingRequest(
    path: string,
    params: seq<(string, string)>,
    after: Option<string>,
    count: nat,
    limit: nat,
    requests: nat,
    showAll: bool)
  {
    function WithPath(p: string): (r: QueryListingRequest)
      ensures r.path == p
      ensures r.params == params && r.after == after && r.count == count
      ensures r.limit == limit && r.requests == requests && r.showAll == showAll
    {
      this.(path := p)
    }

    function WithParams(ps: seq<(string, string)>): (r: QueryListingRequest)
      ensures r.params == ps
      ensures r.path == path && r.after == after && r.count == count
      ensures r.limit == limit && r.requests == requests && r.showAll == showAll
    {
      this.(params := ps)
    }

    function WithAfter(a: Option<string>): (r: QueryListingRequest)
      ensures r.after == a
      ensures r.path == path && r.params == params && r.count == count
      ensures r.limit == limit && r.requests == requests && r.showAll == showAll
    {
      this.(after := a)
    }

    function WithCount(c: nat): (r: QueryListingRequest)
      ensures r.count == c
      ensures r.path == path && r.params == params && r.after == after
      ensures r.limit == limit && r.requests == requests && r.showAll == showAll
    {
      this.(count := c)
    }

    function WithLimit(l: nat): (r: QueryListingRequest)
      ensures r.limit == l
      ensures r.path == path && r.params == params && r.after == after
      ensures r.count == count && r.requests == requests && r.showAll == showAll
    {
      this.(limit := l)
    }

    function WithRequests(n: nat): (r: QueryListingRequest)
      ensures r.requests == n
      ensures r.path == path && r.params == params && r.after == after
      ensures r.count == count && r.limit == limit && r.showAll == showAll
    {
      this.(requests := n)
    }

    function WithShowAll(b: bool): (r: QueryListingRequest)
      ensures r.showAll == b
      ensures r.path == path && r.params == params && r.after == after
      ensures r.count == count && r.limit == limit && r.requests == requests
    {
      this.(showAll := b)
    }
  }

  /** A fresh descriptor: no extra parameters, no cursor, a zero count, hidden items shown. */
  function New(path: string, limit: nat, requests: nat): (r: QueryListingRequest)
    ensures r.path == path && r.limit == limit && r.requests == requests
    ensures r.params == [] && r.after == None && r.count == 0 && r.showAll
  {
    QueryListingRequest(path, [], None, 0, limit, requests, true)
  }

  /** Setting a field twice keeps the last value; setting it twice to the same value is setting it once. */
  lemma SettersLastWins(q: QueryListingRequest, p1: string, p2: string,
                        ps1: seq<(string, string)>, ps2: seq<(string, string)>,
                        a1: Option<string>, a2: Option<string>, c1: nat, c2: nat,
                        l1: nat, l2: nat, n1: nat, n2: nat, b1: bool, b2: bool)
    ensures q.WithPath(p1).WithPath(p2) == q.WithPath(p2)
    ensures q.WithParams(ps1).WithParams(ps2) == q.WithParams(ps2)
    ensures q.WithAfter(a1).WithAfter(a2) == q.WithAfter(a2)
    ensures q.WithCount(c1).WithCount(c2) == q.WithCount(c2)
    ensures q.WithLimit(l1).WithLimit(l2) == q.WithLimit(l2)
    ensures q.WithRequests(n1).WithRequests(n2) == q.WithRequests(n2)
    ensures q.WithShowAll(b1).WithShowAll(b2) == q.WithShowAll(b2)
  {
  }

  /** Overrides of two different fields commute, for every pair of fields. */
  lemma SettersCommute(q: QueryListingRequest, p: string, ps: seq<(string, string)>,
                       a: Option<string>, c: nat, l: nat, n: nat, b: bool)
    ensures q.WithPath(p).WithParams(ps) == q.WithParams(ps).WithPath(p)
    ensures q.WithPath(p).WithAfter(a) == q.WithAfter(a).WithPath(p)
    ensures q.WithPath(p).WithCount(c) == q.WithCount(c).WithPath(p)
    ensures q.WithPath(p).WithLimit(l) == q.WithLimit(l).WithPath(p)
    ensures q.WithPath(p).WithRequests(n) == q.WithRequests(n).WithPath(p)
    ensures q.WithPath(p).WithShowAll(b) == q.WithShowAll(b).WithPath(p)
    ensures q.WithParams(ps).WithAfter(a) == q.WithAfter(a).WithParams(ps)
    ensures q.WithParams(ps).WithCount(c) == q.WithCount(c).WithParams(ps)
    ensures q.WithParams(ps).WithLimit(l) == q.WithLimit(l).WithParams(ps)
    ensures q.WithParams(ps).WithRequests(n) == q.WithRequests(n).WithParams(ps)
    ensures q.WithParams(ps).WithShowAll(b) == q.WithShowAll(b).WithParams(ps)
    ensures q.WithAfter(a).WithCount(c) == q.WithCount(c).WithAfter(a)
    ensures q.WithAfter(a).WithLimit(l) == q.WithLimit(l).WithAfter(a)
    ensures q.WithAfter(a).WithRequests(n) == q.WithRequests(n).WithAfter(a)
    ensures q.WithAfter(a).WithShowAll(b) == q.WithShowAll(b).WithAfter(a)
    ensures q.WithCount(c).WithLimit(l) == q.WithLimit(l).WithCount(c)
    ensures q.WithCount(c).WithRequests(n) == q.WithRequests(n).WithCount(c)
    ensures q.WithCount(c).WithShowAll(b) == q.WithShowAll(b).WithCount(c)
    ensures q.WithLimit(l).WithRequests(n) == q.WithRequests(n).WithLimit(l)
    ensures q.WithLimit(l).WithShowAll(b) == q.WithShowAll(b).WithLimit(l)
    ensures q.WithRequests(n).WithShowAll(b) == q.WithShowAll(b).WithRequests(n)
  {
  }

  /** Chaining the four overrides on a fresh descriptor reads back every value given. */
  lemma BuilderChain(path: string, limit: nat, requests: nat, ps: seq<(string, string)>,
                     a: Option<string>, c: nat, b: bool)
    ensures var q := New(path, limit, requests).WithParams(ps).WithAfter(a).WithCount(c).WithShowAll(b);
            q == QueryListingRequest(path, ps, a, c, limit, requests, b)
  {
  }
}

=== FILE: search.dfy ===
/**
 * Subreddit lookup on the client: `search_for_subreddit` asks the name
 * search endpoint for (partial) matches and keeps the string entries of the
 * `names` array in order; `get_subreddit` picks the first entry whose name
 * is exactly the one asked for.
 */
module SubredditSearch {
  import opened Optional
  import opened Text
  import opened Json
  import opened Errors
  import opened Http
  import opened Client
  import opened Subreddits

  const SearchPath: string := "api/search_reddit_names"
  const NotFoundMessage: string := "Subreddit not found"

  /** The query of a search: the (partial) name, and `exact=false`. */
  function SearchQuery(name: string): Pairs {
    [("query", name), ("exact", "false")]
  }

  /** The string entries of a JSON array, in order; other entries are skipped. */
  function StringsOf(values: seq<Value>): (names: seq<string>)
    ensures |names| <= |values|
    ensures forall s :: s in names <==> JString(s) in values
    decreases |values|
  {
    if |values| == 0 then []
    else
      var head := if values[0].JString? then [values[0].s] else [];
      var names := head + StringsOf(values[1..]);
      assert forall s :: JString(s) in values <==> JString(s) == values[0] || JString(s) in values[1..];
      names
  }

  /** Keeping the strings of two arrays in turn keeps the strings of the joined array. */
  lemma {:induction false} StringsOfAppend(a: seq<Value>, b: seq<Value>)
    ensures StringsOf(a + b) == StringsOf(a) + StringsOf(b)
    decreases |a|
  {
    if |a| == 0 {
      assert a + b == b;
    } else {
      assert (a + b)[1..] == a[1..] + b;
      StringsOfAppend(a[1..], b);
    }
  }

  /** An array of strings only is kept whole, entry for entry. */
  lemma {:induction false} StringsOfAllStrings(values: seq<Value>)
    requires forall i :: 0 <= i < |values| ==> values[i].JString?
    ensures |StringsOf(values)| == |values|
    ensures forall i :: 0 <= i < |values| ==> StringsOf(values)[i] == values[i].s
    decreases |values|
  {
    if |values| > 0 {
      StringsOfAllStrings(values[1..]);
    }
  }

  /** One subreddit per name, in the same order. */
  function Named(names: seq<string>): (srs: seq<Subreddit>)
    ensures |srs| == |names|
    ensures forall i :: 0 <= i < |names| ==> srs[i].name == names[i]
  {
    seq(|names|, i requires 0 <= i < |names| => Subreddit(names[i]))
  }

  /**
   * `search_for_subreddit`: one GET to the name search, read by `ReadNames`;
   * a transport failure is a library error.
   */
  function SearchForSubreddit(api: Api, name: string, fetch: Fetcher): (r: Outcome<seq<Subreddit>>)
    ensures !GetHeaders(api).Ok? ==> r.Panic?
    ensures r.Err? ==> r.error.source == Tag(Transport)
                       || (r.error.source == "" && StartsWith(r.error.message, ServerErrorPrefix))
  {
    var resp :- Query(api, "GET", SearchPath, Some(SearchQuery(name)), None, fetch);
    ReadNames(resp)
  }

  /**
   * Reading the search's response: a 4xx/5xx status is an error naming the
   * status, an undecodable body is a library error, a body whose `names` is
   * not an array panics, and otherwise every string entry of `names` becomes
   * a subreddit.
   */
  function ReadNames(resp: Response): (r: Outcome<seq<Subreddit>>)
    ensures IsClientError(resp.status) || IsServerError(resp.status) ==> r.Err?
    ensures r.Err? ==> r.error.source == Tag(Transport)
                       || (r.error.source == "" && StartsWith(r.error.message, ServerErrorPrefix))
    ensures r.Ok? ==> resp.body.Parsed? && AsArray(Get(resp.body.json, "names")).Some?
                      && forall i :: 0 <= i < |r.value| ==>
                           JString(r.value[i].name) in AsArray(Get(resp.body.json, "names")).value
  {
    if IsClientError(resp.status) || IsServerError(resp.status) then
      Err(FromMessage(ServerErrorMessage(resp.status)))
    else
      match resp.body
      case Unparsable(debug) => Err(FromWrapped(Transport, debug))
      case Parsed(v) =>
        match AsArray(Get(v, "names"))
        case None => Panic("names is not an array")
        case Some(entries) => Ok(Named(StringsOf(entries)))
  }

  /** The string entries of a response's `names` array (none when it has no such array). */
  function NamesOf(resp: Response): seq<string>
  {
    if resp.body.Parsed? then StringsOf(AsArray(Get(resp.body.json, "names")).GetOr([])) else []
  }

  /**
   * A search's response succeeds exactly when its status is not 4xx/5xx and
   * its body holds a `names` array, and then yields one subreddit per string
   * entry, in order; an error status is reported with the status in the
   * message whatever the body.
   */
  lemma ReadNamesMeaning(resp: Response)
    ensures var r := ReadNames(resp);
            var failed := IsClientError(resp.status) || IsServerError(resp.status);
            && (failed ==> r == Err(ApiError("", ServerErrorPrefix + DecimalString(resp.status))))
            && (!failed && resp.body.Unparsable? ==> r == Err(FromWrapped(Transport, resp.body.debug)))
            && (!failed && resp.body.Parsed? && AsArray(Get(resp.body.json, "names")).None? ==> r.Panic?)
            && (r.Ok? <==> !failed && resp.body.Parsed? && AsArray(Get(resp.body.json, "names")).Some?)
            && (r.Ok? ==> |r.value| == |NamesOf(resp)|
                          && forall i :: 0 <= i < |r.value| ==> r.value[i].name == NamesOf(resp)[i])
  {
  }

  /** A name is among the results exactly when it is a string entry of `names`. */
  lemma ReadNamesKeepsStringEntries(resp: Response, found: string)
    requires ReadNames(resp).Ok?
    ensures (exists i :: 0 <= i < |ReadNames(resp).value| && ReadNames(resp).value[i].name == found)
            <==> JString(found) in AsArray(Get(resp.body.json, "names")).value
  {
    ReadNamesMeaning(resp);
    var srs := ReadNames(resp).value;
    var names := NamesOf(resp);
    if found in names {
      var i :| 0 <= i < |names| && names[i] == found;
      assert srs[i].name == found;
    }
  }

  /** The request a search sends, when the headers can be built. */
  function SearchRequest(api: Api, name: string): (req: HttpRequest)
    requires GetHeaders(api).Ok?
  {
    HttpRequest("GET", ApiBase + "/" + SearchPath, GetHeaders(api).value, SearchQuery(name), None)
  }

  /**
   * A search sends one GET to the search endpoint with
   * `query=<name>&exact=false` and the client's headers (it panics when the
   * headers cannot be built), and its reply alone decides the outcome.
   */
  lemma SearchSendsOneRequest(api: Api, name: string, fetch: Fetcher)
    ensures var r := SearchForSubreddit(api, name, fetch);
            && (!GetHeaders(api).Ok? ==> r.Panic?)
            && (GetHeaders(api).Ok? ==>
                  match fetch(0, SearchRequest(api, name))
                  case TransportFailure(debug) => r == Err(FromWrapped(Transport, debug))
                  case Delivered(resp) => r == ReadNames(resp))
  {
    SearchPathNeedsNoIdentity(api.whoami);
    if GetHeaders(api).Ok? {
      assert BuildRequest(api, "GET", SearchPath, Some(SearchQuery(name)), None) == Ok(SearchRequest(api, name));
    }
  }

  /** The search path has no `{username}` placeholder, so it never depends on the cached identity. */
  lemma SearchPathNeedsNoIdentity(whoami: Option<Value>)
    ensures ReformatPath(whoami, SearchPath) == Ok(ApiBase + "/" + SearchPath)
  {
    AbsentFirstChar(SearchPath, UsernameMacro);
  }

  /**
   * The position of the first subreddit called exactly `name`, if any: all
   * before it have other names, and none has it when there is no position.
   */
  function FindByName(srs: seq<Subreddit>, name: string): (r: Option<nat>)
    ensures r.Some? ==> r.value < |srs| && srs[r.value].name == name
                        && forall j :: 0 <= j < r.value ==> srs[j].name != name
    ensures r.None? ==> forall j :: 0 <= j < |srs| ==> srs[j].name != name
    decreases |srs|
  {
    if |srs| == 0 then None
    else if srs[0].name == name then Some(0)
    else
      match FindByName(srs[1..], name)
      case None => None
      case Some(i) => Some(i + 1)
  }

  /**
   * `get_subreddit`: search for the name, then return the first result
   * called exactly that; with no such result it is an error.
   */
  function GetSubreddit(api: Api, name: string, fetch: Fetcher): (r: Outcome<Subreddit>)
    ensures var found := SearchForSubreddit(api, name, fetch);
            && (!found.Ok? ==> (r.Err? <==> found.Err?) && (r.Err? ==> r.error == found.error)
                               && (r.Panic? <==> found.Panic?))
            && (found.Ok? ==> (r.Ok? <==> exists i :: 0 <= i < |found.value| && found.value[i].name == name))
            && (r.Ok? ==> r.value.name == name)
            && (found.Ok? && !r.Ok? ==> r == Err(ApiError("", NotFoundMessage)))
  {
    var matching :- SearchForSubreddit(api, name, fetch);
    match FindByName(matching, name)
    case Some(i) => Ok(matching[i])
    case None => Err(FromMessage(NotFoundMessage))
  }

  /** The reply of the test scenario: the names `rust`, `rust1` and `rust2`. */
  const ScenarioReply: Reply :=
    Delivered(Response(200, Parsed(JObject(map["names" :=
      JArray([JString("rust"), JString("rust1"), JString("rust2")])]))))

  /** The search body of the test scenario reads as three subreddits. */
  lemma ThreeNames()
    ensures ScenarioReply.Delivered?
    ensures ReadNames(ScenarioReply.response) == Ok([Subreddit("rust"), Subreddit("rust1"), Subreddit("rust2")])
  {
    var entries := [JString("rust"), JString("rust1"), JString("rust2")];
    assert Get(JObject(map["names" := JArray(entries)]), "names") == JArray(entries);
    StringsOfAllStrings(entries);
    assert StringsOf(entries) == ["rust", "rust1", "rust2"];
    assert Named(["rust", "rust1", "rust2"]) == [Subreddit("rust"), Subreddit("rust1"), Subreddit("rust2")];
  }

  /**
   * The search of the test scenario: a server answering every request with
   * the names `rust`, `rust1`, `rust2` yields those three subreddits.
   */
  lemma ScenarioSearch(config: Config, fetch: Fetcher)
    requires IsHeaderValue(config.userAgent)
    requires forall n, req :: fetch(n, req) == ScenarioReply
    ensures SearchForSubreddit(Client.New(config), "rust1", fetch)
            == Ok([Subreddit("rust"), Subreddit("rust1"), Subreddit("rust2")])
  {
    var api := Client.New(config);
    assert GetHeaders(api).Ok?;
    SearchSendsOneRequest(api, "rust1", fetch);
    ThreeNames();
  }

  /** Whenever some result carries the name asked for, `get_subreddit` returns that subreddit. */
  lemma GetSubredditFindsListedName(api: Api, name: string, fetch: Fetcher, i: nat)
    requires SearchForSubreddit(api, name, fetch).Ok?
    requires i < |SearchForSubreddit(api, name, fetch).value|
    requires SearchForSubreddit(api, name, fetch).value[i].name == name
    ensures GetSubreddit(api, name, fetch) == Ok(Subreddit(name))
  {
  }

  /** The test scenario: the search for `rust1` finds `rust1` among the three names. */
  lemma FindsExactMatch(config: Config, fetch: Fetcher)
    requires IsHeaderValue(config.userAgent)
    requires forall n, req :: fetch(n, req) == ScenarioReply
    ensures GetSubreddit(Client.New(config), "rust1", fetch) == Ok(Subreddit("rust1"))
  {
    ScenarioSearch(config, fetch);
    GetSubredditFindsListedName(Client.New(config), "rust1", fetch, 1);
  }
}

=== FILE: subreddit.dfy ===
/**
 * `Subreddit::get_top`: the top posts of one subreddit, fetched through the
 * listing engine. The requested count is split into a page size of at most
 * 100 and a number of pages; a count over 100 asks for `count / 100` full
 * pages, rounding down, and the items fetched are cut to the count.
 */
module Subreddits {
  import opened Json
  import opened Errors
  import opened Http
  import opened ListingRequest
  import opened Client
  import opened Pagination

  /** A subreddit, known by its name. */
  datatype Subreddit = Subreddit(name: string)

  /** The largest page the top listing asks for. */
  const MaxPage: nat := 100

  /** The endpoint of a subreddit's top posts. */
  function TopPath(name: string): string {
    "r/" + name + "/top"
  }

  /**
   * The descriptor for the top `count` posts: one page of `count` items up
   * to 100, otherwise `count / 100` pages of 100. Every other field keeps
   * the defaults of a fresh descriptor.
   */
  function TopRequest(name: string, count: nat): (ql: QueryListingRequest)
    ensures ql == ListingRequest.New(TopPath(name), ql.limit, ql.requests)
    ensures 1 <= ql.requests && ql.limit <= MaxPage
    ensures ql.limit * ql.requests <= count < ql.limit * ql.requests + MaxPage
    ensures count > 0 ==> ql.limit > 0
    ensures count <= MaxPage ==> ql.limit == count && ql.requests == 1
    ensures count > MaxPage ==> ql.limit == MaxPage && ql.requests == count / MaxPage
  {
    if count > MaxPage then ListingRequest.New(TopPath(name), MaxPage, count / MaxPage)
    else ListingRequest.New(TopPath(name), count, 1)
  }

  /**
   * The pages requested add up to the count exactly when it fits in one page
   * or is a whole number of pages; otherwise the remainder is never asked for.
   */
  lemma TopRequestCoversCount(name: string, count: nat)
    ensures var ql := TopRequest(name, count);
            (ql.limit * ql.requests == count <==> count <= MaxPage || count % MaxPage == 0)
            && ql.limit * ql.requests == count - (if count > MaxPage then count % MaxPage else 0)
  {
  }

  /** The smaller of two counts. */
  function Min(a: nat, b: nat): (m: nat)
    ensures m <= a && m <= b && (m == a || m == b)
  {
    if a <= b then a else b
  }

  /**
   * `get_top`: fetch the listing for the top `count` posts and keep at most
   * `count` of them; an error or a panic of the fetch is passed on with no
   * items.
   */
  function GetTop(api: Api, sub: Subreddit, count: nat, fetch: Fetcher): (r: Outcome<seq<Value>>)
    ensures var fetched := QueryListing(api, TopRequest(sub.name, count), fetch).outcome;
            && (r.Ok? <==> fetched.Ok?)
            && (!fetched.Ok? ==> r == fetched)
            && (r.Ok? ==> |r.value| == Min(count, |fetched.value|)
                          && r.value == fetched.value[..|r.value|])
  {
    var posts :- QueryListing(api, TopRequest(sub.name, count), fetch).outcome;
    Ok(posts[..Min(count, |posts|)])
  }

  /**
   * A server whose every page holds exactly the page size asked for: when
   * the path and headers can be built, the listing succeeds after one
   * request per page with one page's worth of items per request.
   */
  lemma UniformListing(api: Api, ql: QueryListingRequest, fetch: Fetcher)
    requires ReformatPath(api.whoami, ql.path).Ok? && GetHeaders(api).Ok?
    requires forall n, req :: ReadPage(fetch(n, req)).Next? && |ReadPage(fetch(n, req)).children| == ql.limit
    ensures var l := QueryListing(api, ql, fetch);
            && l.outcome.Ok?
            && |l.sent| == ql.requests
            && |l.outcome.value| == ql.limit * ql.requests
  {
    var l := QueryListing(api, ql, fetch);
    var steps := StepsFrom(Reader(fetch), 0, l.sent);
    QueryListingFollowsLoop(api, ql, fetch);
    assert l.outcome.Ok?;
    SuccessfulFetchReadsEveryPage(api, ql, fetch);
    ReceivedUniformPages(steps, ql.limit);
  }

  /**
   * On such a server `get_top` succeeds after one request per page and
   * returns one page's worth of posts per request, which for a count over
   * 100 is the count rounded down to a multiple of 100.
   */
  lemma GetTopFullPages(api: Api, sub: Subreddit, count: nat, fetch: Fetcher)
    requires ReformatPath(api.whoami, TopPath(sub.name)).Ok? && GetHeaders(api).Ok?
    requires forall n, req :: ReadPage(fetch(n, req)).Next?
                              && |ReadPage(fetch(n, req)).children| == TopRequest(sub.name, count).limit
    ensures var r := GetTop(api, sub, count, fetch);
            && r.Ok?
            && |QueryListing(api, TopRequest(sub.name, count), fetch).sent| == TopRequest(sub.name, count).requests
            && |r.value| == (if count > MaxPage then MaxPage * (count / MaxPage) else count)
  {
    UniformListing(api, TopRequest(sub.name, count), fetch);
  }

  /** Against a server that fills every page, a count over 100 that is not a multiple of 100 comes back `count % 100` short. */
  lemma GetTopFallsShort(api: Api, sub: Subreddit, count: nat, fetch: Fetcher)
    requires count > MaxPage && count % MaxPage != 0
    requires ReformatPath(api.whoami, TopPath(sub.name)).Ok? && GetHeaders(api).Ok?
    requires forall n, req :: ReadPage(fetch(n, req)).Next?
                              && |ReadPage(fetch(n, req)).children| == TopRequest(sub.name, count).limit
    ensures GetTop(api, sub, count, fetch).Ok?
    ensures |GetTop(api, sub, count, fetch).value| == count - count % MaxPage < count
  {
    GetTopFullPages(api, sub, count, fetch);
  }

  /**
   * Whatever the server holds, as long as no page has more children than
   * the page size asked for, `get_top` returns at most one page's worth of
   * posts per request: for a count over 100, at most `100 * (count / 100)`.
   */
  lemma GetTopAtMostPages(api: Api, sub: Subreddit, count: nat, fetch: Fetcher)
    requires forall n, req :: |Children(ReadPage(fetch(n, req)))| <= TopRequest(sub.name, count).limit
    ensures var r := GetTop(api, sub, count, fetch);
            r.Ok? ==> |r.value| <= count
                      && |r.value| <= (if count > MaxPage then MaxPage * (count / MaxPage) else count)
  {
    BoundedListing(api, TopRequest(sub.name, count), fetch);
  }

  /** Asking for the top 250 posts asks for two pages of 100. */
  lemma TopTwoHundredFifty(name: string)
    ensures var ql := TopRequest(name, 250);
            ql.limit == 100 && ql.requests == 2 && ql.path == "r/" + name + "/top"
  {
  }
}

=== FILE: text.dfy ===
/**
 * String helpers the client relies on from Rust's standard library:
 * `str::contains`, `str::replace` and the decimal rendering of an
 * unsigned integer (`to_string` / `format!("{}")`).
 */
module Text {

  predicate StartsWith(s: string, p: string) {
    |p| <= |s| && s[..|p|] == p
  }

  /** `p` occurs somewhere in `s` (Rust's `str::contains`). */
  predicate Contains(s: string, p: string)
    decreases |s|
  {
    StartsWith(s, p) || (|s| > 0 && Contains(s[1..], p))
  }

  /** A string without the pattern's first character does not contain the pattern. */
  lemma {:induction false} AbsentFirstChar(s: string, p: string)
    requires |p| > 0 && p[0] !in s
    ensures !Contains(s, p)
    decreases |s|
  {
    if |s| > 0 {
      assert s[0] != p[0];
      assert forall i :: 0 <= i < |s[1..]| ==> s[1..][i] == s[i + 1];
      AbsentFirstChar(s[1..], p);
    }
  }

  /**
   * Every non-overlapping occurrence of `p`, scanning left to right,
   * replaced by `r` (Rust's `str::replace` with a non-empty pattern).
   */
  function ReplaceAll(s: string, p: string, r: string): string
    requires |p| > 0
    decreases |s|
  {
    if |s| == 0 then ""
    else if StartsWith(s, p) then r + ReplaceAll(s[|p|..], p, r)
    else [s[0]] + ReplaceAll(s[1..], p, r)
  }

  /** A string without the pattern comes back unchanged. */
  lemma {:induction false} ReplaceAbsent(s: string, p: string, r: string)
    requires |p| > 0
    requires !Contains(s, p)
    ensures ReplaceAll(s, p, r) == s
    decreases |s|
  {
    if |s| > 0 {
      ReplaceAbsent(s[1..], p, r);
      assert [s[0]] + s[1..] == s;
    }
  }

  /** When the pattern occurs, the replacement text appears in the result. */
  lemma {:induction false} ReplaceInserts(s: string, p: string, r: string)
    requires |p| > 0
    requires Contains(s, p)
    ensures Contains(ReplaceAll(s, p, r), r)
    decreases |s|
  {
    var t := ReplaceAll(s, p, r);
    if StartsWith(s, p) {
      assert t[..|r|] == r;
    } else {
      ReplaceInserts(s[1..], p, r);
      assert t[1..] == ReplaceAll(s[1..], p, r);
    }
  }

  /**
   * Replacement works leftmost first and never overlaps: when the first
   * occurrence of `p` in `a + p + b` is the one after `a`, `a` is kept,
   * that occurrence becomes `r`, and the scan resumes after it in `b`.
   */
  lemma {:induction false} ReplaceSplit(a: string, p: string, b: string, r: string)
    requires |p| > 0
    requires forall k :: 0 <= k < |a| ==> !StartsWith((a + p + b)[k..], p)
    ensures ReplaceAll(a + p + b, p, r) == a + r + ReplaceAll(b, p, r)
    decreases |a|
  {
    var s := a + p + b;
    if |a| == 0 {
      assert s == p + b && s[..|p|] == p && s[|p|..] == b;
    } else {
      assert !StartsWith(s[0..], p) && s[0..] == s;
      assert s[1..] == a[1..] + p + b;
      forall k | 0 <= k < |a[1..]|
        ensures !StartsWith((a[1..] + p + b)[k..], p)
      {
        assert (a[1..] + p + b)[k..] == s[k + 1..];
      }
      ReplaceSplit(a[1..], p, b, r);
      assert [a[0]] + a[1..] == a;
    }
  }

  predicate IsDigit(c: char) {
    '0' <= c <= '9'
  }

  predicate AllDigits(s: string) {
    forall i :: 0 <= i < |s| ==> IsDigit(s[i])
  }

  function DigitChar(d: nat): (c: char)
    requires d < 10
    ensures IsDigit(c)
  {
    (d + '0' as int) as char
  }

  function DigitValue(c: char): (d: nat)
    requires IsDigit(c)
    ensures d < 10
  {
    (c as int) - ('0' as int)
  }

  /**
   * The decimal text of a natural number: digits only, no leading zero
   * except for zero itself.
   */
  function DecimalString(n: nat): (s: string)
    ensures |s| >= 1 && AllDigits(s)
    ensures s[0] == '0' ==> n == 0
    decreases n
  {
    if n < 10 then [DigitChar(n)] else DecimalString(n / 10) + [DigitChar(n % 10)]
  }

  /** Reads a string of decimal digits back as a number. */
  function ParseDecimal(s: string): nat
    requires AllDigits(s)
    decreases |s|
  {
    if |s| == 0 then 0 else 10 * ParseDecimal(s[..|s| - 1]) + DigitValue(s[|s| - 1])
  }

  /** The decimal text determines the number it was made from. */
  lemma {:induction false} DecimalRoundTrip(n: nat)
    ensures ParseDecimal(DecimalString(n)) == n
    decreases n
  {
    var s := DecimalString(n);
    if n >= 10 {
      DecimalRoundTrip(n / 10);
      assert s[..|s| - 1] == DecimalString(n / 10);
    }
  }
}
